=== FILE: README.md ===
# biowc-spectrum viewport, panel sync and peak matching, in Dafny

This project models the interactive core of the biowc mass-spectrometry chart
components. It covers three parts.

**The panels.** A chart shows a spectrum as a stick plot (`biowc-spectrum-peaks`). It can add a
second, mirrored spectrum drawn downwards, and a strip that plots each matched
fragment ion's m/z error (`biowc-spectrum-error`).
- Each peaks panel keeps a zoom and a scroll offset per axis. The error panel
  keeps only the x pair.
- A wheel event zooms about the cursor (with ctrl held) or scrolls. Zoom never
  goes below 1, and every scroll offset is clipped to the zoomed extent.
- After each change a panel re-labels its ticks. A change the user caused
  dispatches a `zoom-scroll` event; a change set from outside does not.

**The chart.** The composite element (`biowc-spectrum`) derives every panel's
properties and keeps the panels in step.
- The properties it derives are the shared m/z extent, normalised intensities,
  the indices of unmatched peaks to hide, and the lookup from peak index to
  matched ion.
- It keeps the panels in step by forwarding each panel's events to the others
  through their silent setters. The mirror's y scroll is negated.

**Peak matching.** The Rust library's `match_peaks` pairs query peaks with
reference peaks.
- Each side proposes its best in-tolerance partner.
- Conflicting proposals are then pruned to a one-to-one matching.

Layout:
- `util.dfy`: Option, min/max helpers.
- `viewport.dfy`: zoom step, cursor anchoring, clipping, linear maps, tick values.
- `fragment_peak.dfy`: the matched-peak records and their conversion.
- `peak_index.dfy`: `indexMatchedIons`, `PEAK_COLOR_MAP`.
- `numerals.dfy`: decimal text and `repeat`, with their readers.
- `peak_matching.dfy`: `match_peaks`.
- `spectrum_peaks.dfy`: the peaks panel as a class.
- `spectrum_error.dfy`: the error panel as a class.
- `spectrum_view.dfy`: the chart as a class.

Each panel is a class:
- It has real-valued zoom and scroll fields, the tick-label values it last
  wrote, and a ghost log of the events it dispatched.
- `Valid()` (drawable, zooms at least 1) is preserved by every method.
- `Clipped()` (every scroll offset inside its clip interval) is kept by every
  user handler. The silent setter does not clip, so it can break `Clipped()`,
  as the source does.

Event dispatch is synchronous in the source. The model returns the details a
handler dispatched, and the chart forwards each of them in order.

A ctrl-wheel over a peaks panel dispatches two events, one per zoomed axis. A
plain wheel dispatches zero to two. The error panel dispatches at most one.

## Model

| member | source | states |
|---|---|---|
| Viewport.ZoomedBy | biowc-spectrum/src/BiowcSpectrumPeaks.ts:604-609 | the zoom after a ctrl-wheel step is at least 1 and at least old zoom times `1 + delta*sensitivity`, and equals one of the two |
| Viewport.ContentAt | biowc-spectrum/src/BiowcSpectrumPeaks.ts:446-449 | the content coordinate that the group transform `translate(scroll) scale(zoom)` shows at a given screen offset |
| Viewport.AnchorStaysFixed | biowc-spectrum/src/BiowcSpectrumPeaks.ts:604-615 | re-centring the scroll by `zoomChange*(scroll-center)+center` keeps the content point under the cursor fixed when the zoom is multiplied by `zoomChange` |
| Viewport.ZoomStepKeepsAnchor | biowc-spectrum/src/BiowcSpectrumPeaks.ts:604-615 | for a whole zoom step where neither the floor nor the clip acts, the point under the cursor stays put |
| Viewport.ClipOffset | biowc-spectrum/src/BiowcSpectrumPeaks.ts:644-647 | the result lies in `[-(zoom-1)*extent, 0]` for zoom at least 1; in-range offsets are returned unchanged; it saturates at either end; at zoom 1 it is 0 |
| Viewport.ClipMirrorOffset | biowc-spectrum/src/BiowcSpectrumPeaks.ts:649-655 | the mirror clip: the result lies in `[0, (zoom-1)*extent]`; in-range offsets are unchanged; it saturates at either end; at zoom 1 it is 0 |
| Viewport.ClipIdempotent | biowc-spectrum/src/BiowcSpectrumPeaks.ts:644-655 | clipping twice equals clipping once, for both clips |
| Viewport.NegationMirrorsClip | biowc-spectrum/src/BiowcSpectrumPeaks.ts:649-655 | negating an offset maps the upright y clip interval onto the mirror's, and negation commutes with clipping |
| Viewport.ProjectRoundTrip | biowc-spectrum/src/BiowcSpectrumPeaks.ts:657-662 | the linear data-to-pixel map `_mzToX` and its inverse undo each other |
| Viewport.VisibleValueConsistent | biowc-spectrum/src/BiowcSpectrumPeaks.ts:672-682 | the value an x tick label shows at fraction f is the one that the group transform draws at `origin + f*width` |
| Viewport.VisibleValueAtRest | biowc-spectrum/src/BiowcSpectrumPeaks.ts:672-682 | at zoom 1 and scroll 0 the x label at fraction f is `min + f*range` |
| FragmentPeak.SeriesNameRoundTrip | biowclib-mz/src/lib.rs:15-48 | the name of each of the 32 ion series reads back as that series |
| FragmentPeak.SeriesNameInjective | biowclib-mz/src/lib.rs:15-48 | distinct ion series get distinct names |
| FragmentPeak.ToFragmentPeak | biowclib-mz/src/lib.rs:13-61 | the conversion copies every numeric field unchanged and names the series, so the original peak can be recovered |
| FragmentPeak.ToFragmentPeakInjective | biowclib-mz/src/lib.rs:50-60 | two annotator peaks with the same export are equal |
| PeakIndex.IndexMatchedIons | biowc-spectrum/src/peaks.ts:7-14 | the keys are exactly the ions' peak indices; each stored ion is one of the ions, stored unmodified under its own peak index |
| PeakIndex.LastWriteWins | biowc-spectrum/src/peaks.ts:10-13 | a key is present iff some ion has that peak index, and it maps to the last such ion in list order |
| PeakIndex.IndexOfNoIons | biowc-spectrum/src/peaks.ts:13 | the empty list gives the empty map |
| PeakIndex.PeakStroke | biowc-spectrum/src/BiowcSpectrumPeaks.ts:497 | b ions are `#0000ff`, y ions are `#ff0000`, and any other ion type is grey |
| PeakIndex.PeakColorMapKeys | biowc-spectrum/src/peaks.ts:16-19 | the colour table has exactly the keys b and y |
| PeakMatching.IsLastMaxUnique | biowclib-mz/src/lib.rs:157-163 | at most one index is the last maximal in-tolerance one, so the choice `max_by` makes is determined |
| PeakMatching.LastArgMax | biowclib-mz/src/lib.rs:157-163 | `max_by` over the in-tolerance indices is None iff none is in tolerance; otherwise it is the last index with maximal score |
| PeakMatching.MaxByLast | biowclib-mz/src/lib.rs:157-163 | the loop that picks the maximum computes `LastArgMax` |
| PeakMatching.QueryMask | biowclib-mz/src/lib.rs:149-155 | entry j says whether reference j is within tolerance of the query m/z |
| PeakMatching.ReferenceMask | biowclib-mz/src/lib.rs:179-185 | entry j says whether query j is within tolerance of the reference m/z |
| PeakMatching.QueryCandidatesAreBest | biowclib-mz/src/lib.rs:145-173 | query-side pairs are in range and in tolerance; the chosen reference has maximal intensity, with ties going to the last index; there is at most one pair per query; for every query index, a pair exists iff some reference is in tolerance |
| PeakMatching.ReferenceCandidatesAreBest | biowclib-mz/src/lib.rs:175-203 | the same for the reference side, choosing the in-tolerance query with the largest m/z (ties to the last index); for every reference index, a pair exists iff some query is in tolerance |
| PeakMatching.QueryMatches | biowclib-mz/src/lib.rs:145-173 | the loop over query peaks yields exactly the query-side candidate set |
| PeakMatching.ReferenceMatches | biowclib-mz/src/lib.rs:175-203 | the loop over reference peaks yields exactly the reference-side candidate set |
| PeakMatching.PruneConflicts | biowclib-mz/src/lib.rs:205-231 | for any iteration order, the result is a one-to-one subset of the candidates. Every removed pair conflicts with a pair of at least its intensity sum. A pair with no conflicting pair survives, and so does a pair strictly heavier than every pair it conflicts with |
| PeakMatching.MatchPeaks | biowclib-mz/src/lib.rs:128-234 | the result is a partial one-to-one matching drawn from the union of both sides' candidates; every pair is in range and in tolerance; every dropped candidate was outweighed |
| SpectrumPeaks.MinMz | biowc-spectrum/src/BiowcSpectrumPeaks.ts:158-164 | the `minMz` property when set, else the smallest peak m/z |
| SpectrumPeaks.MaxMz | biowc-spectrum/src/BiowcSpectrumPeaks.ts:166-172 | the `maxMz` property when set, else the largest peak m/z |
| SpectrumPeaks.IntensityRangeCovers | biowc-spectrum/src/BiowcSpectrumPeaks.ts:178-184 | with non-negative padding, the y range covers every non-negative intensity |
| SpectrumPeaks.MzAxisEnds | biowc-spectrum/src/BiowcSpectrumPeaks.ts:657-662 | `_mzToX` puts `_minMz` at `xStartPadded` and `_maxMz` at the right edge of the padded width, and every x reads back as the m/z drawn there |
| SpectrumPeaks.IntensityAxis | biowc-spectrum/src/BiowcSpectrumPeaks.ts:664-670 | `_intensityToY` is linear from the baseline: a row's offset from `yStart` is proportional to its intensity, upwards, or downwards in the mirror panel |
| SpectrumPeaks.IntensityAxisEnds | biowc-spectrum/src/BiowcSpectrumPeaks.ts:664-670 | intensity 0 is drawn on the baseline `yStart` and the full intensity range at `yEnd` |
| SpectrumPeaks.XTickPlacement | biowc-spectrum/src/BiowcSpectrumPeaks.ts:389-390 | the x tick at fraction f sits at `xStartPadded + f*width` |
| SpectrumPeaks.YTickPlacement | biowc-spectrum/src/BiowcSpectrumPeaks.ts:420-423 | the y tick at fraction f sits `(1-f)` of the axis height from the baseline, in the panel's direction |
| SpectrumPeaks.AnnotationNumber | biowc-spectrum/src/BiowcSpectrumPeaks.ts:489-493 | a y ion's number plus its residue position is `pepSeq.length + 1`; other ion types keep their position |
| SpectrumPeaks.AnnotationText | biowc-spectrum/src/BiowcSpectrumPeaks.ts:495-501 | there is no text (`repeat` throws) exactly when the charge is negative |
| SpectrumPeaks.AnnotationTextReadsBack | biowc-spectrum/src/BiowcSpectrumPeaks.ts:501 | the text starts with the ion type, ends with one `+` per charge, and the digits between parse back to the residue number |
| SpectrumPeaks.RenderPeak | biowc-spectrum/src/BiowcSpectrumPeaks.ts:478-539 | a hidden index renders nothing. A negative charge fails. Otherwise there is a stem from the baseline to the intensity at the peak's m/z, grey unless the peak is matched. A matched peak takes its colour and carries the annotation text at the tip in the same colour |
| SpectrumPeaks.PeaksPanel.ClipY | biowc-spectrum/src/BiowcSpectrumPeaks.ts:649-655 | `_clipYOffset` lands in the panel's own interval (below or above the baseline), leaves in-range offsets alone, and is 0 at zoom 1 |
| SpectrumPeaks.PeaksPanel.XTickLabelConsistent | biowc-spectrum/src/BiowcSpectrumPeaks.ts:672-682 | under `translate(xScroll) scale(xZoom)` about `xStartPadded`, the m/z an x label shows is drawn exactly under its tick |
| SpectrumPeaks.PeaksPanel.YTickLabelConsistent | biowc-spectrum/src/BiowcSpectrumPeaks.ts:684-699 | under translation by `-yScroll` and scaling by `yZoom` about the baseline, the intensity a y label shows is drawn exactly beside its tick, upright and mirrored |
| SpectrumPeaks.PeaksPanel.TickLabelsAtRest | biowc-spectrum/src/BiowcSpectrumPeaks.ts:672-699 | `XTickLabel` and `YTickLabel` unzoomed and unscrolled: the labels show `minMz + f*mzRange` and `(1-f)*intensityRange` |
| SpectrumPeaks.PeaksPanel.ComputeXTickLabels | biowc-spectrum/src/BiowcSpectrumPeaks.ts:556-560 | one label per x tick fraction, each the m/z the current view shows at that fraction |
| SpectrumPeaks.PeaksPanel.ComputeYTickLabels | biowc-spectrum/src/BiowcSpectrumPeaks.ts:562-567 | one label per y tick fraction, each the intensity the current view shows at that fraction |
| SpectrumPeaks.PeaksPanel.constructor | biowc-spectrum/src/BiowcSpectrumPeaks.ts:150-156 | a new panel has zoom 1 and scroll 0 on both axes and has dispatched nothing |
| SpectrumPeaks.PeaksPanel.UpdateZoomAndScroll | biowc-spectrum/src/BiowcSpectrumPeaks.ts:541-581 | every tick label shows its current value; exactly one event with all four values is logged unless suppressed, else none |
| SpectrumPeaks.PeaksPanel.Updated | biowc-spectrum/src/BiowcSpectrumPeaks.ts:302-307 | re-labels and dispatches one event |
| SpectrumPeaks.PeaksPanel.UpdateZoomScroll | biowc-spectrum/src/BiowcSpectrumPeaks.ts:309-321 | stores all four values verbatim (unclipped), re-labels, and dispatches nothing |
| SpectrumPeaks.PeaksPanel.SetXZoom | biowc-spectrum/src/BiowcSpectrumPeaks.ts:106-109 | stores the value and dispatches one event |
| SpectrumPeaks.PeaksPanel.SetXScroll | biowc-spectrum/src/BiowcSpectrumPeaks.ts:115-118 | stores the value unclipped and dispatches one event |
| SpectrumPeaks.PeaksPanel.SetYZoom | biowc-spectrum/src/BiowcSpectrumPeaks.ts:124-127 | stores the value and dispatches one event |
| SpectrumPeaks.PeaksPanel.SetYScroll | biowc-spectrum/src/BiowcSpectrumPeaks.ts:133-136 | stores the value unclipped and dispatches one event |
| SpectrumPeaks.PeaksPanel.HandleXZoom | biowc-spectrum/src/BiowcSpectrumPeaks.ts:604-615 | new x zoom is the floored product; new x scroll is the clipped anchored offset; the state stays clipped; one event; the point under the cursor stays put when neither floor nor clip acts |
| SpectrumPeaks.PeaksPanel.HandleXScroll | biowc-spectrum/src/BiowcSpectrumPeaks.ts:617-622 | the x scroll moves by `delta*scrollSensitivity`, clipped; one event |
| SpectrumPeaks.PeaksPanel.HandleYZoom | biowc-spectrum/src/BiowcSpectrumPeaks.ts:624-635 | as for x, with the panel's own y clip; the anchor is measured from the baseline |
| SpectrumPeaks.PeaksPanel.HandleYScroll | biowc-spectrum/src/BiowcSpectrumPeaks.ts:637-642 | the y scroll moves by `delta*scrollSensitivity`, clipped; one event |
| SpectrumPeaks.PeaksPanel.WheelView | biowc-spectrum/src/BiowcSpectrumPeaks.ts:587-642 | the view a wheel gesture leaves: zooms at least 1, clipping kept, and a plain wheel on an unzoomed panel changes nothing |
| SpectrumPeaks.PeaksPanel.WheelEvents | biowc-spectrum/src/BiowcSpectrumPeaks.ts:587-602 | the events of a gesture: two with ctrl, else one per axis zoomed above 1; the last carries the final view, and every one has zooms at least 1 |
| SpectrumPeaks.PeaksPanel.HandleWheel | biowc-spectrum/src/BiowcSpectrumPeaks.ts:587-602 | see the note after the table |
| SpectrumError.MzErrorTypeLabel | biowc-spectrum/src/BiowcSpectrumError.ts:14-25 | every label starts with `Error`, and only an unrecognised type gets the bare `Error` |
| SpectrumError.MzErrorTypeLabelsDistinct | biowc-spectrum/src/BiowcSpectrumError.ts:14-25 | the error types get pairwise distinct axis labels |
| SpectrumError.ErrorLabel | biowc-spectrum/src/BiowcSpectrumError.ts:130-132 | the `errorLabel` property when non-empty, else the type's label |
| SpectrumError.TransformMzErrorUnits | biowc-spectrum/src/BiowcSpectrumError.ts:27-42 | ppm is parts per million of the reference m/z, mmu thousandths per unit m/z; Da and unrecognised types leave the error as is |
| SpectrumError.TransformMzErrorSign | biowc-spectrum/src/BiowcSpectrumError.ts:27-42 | the converted error is 0 exactly for an exact match, and keeps the error's sign when the reference m/z is positive |
| SpectrumError.PpmIsThousandMmu | biowc-spectrum/src/BiowcSpectrumError.ts:27-42 | the same error in ppm is 1000 times its value in mmu |
| SpectrumError.Errors | biowc-spectrum/src/BiowcSpectrumError.ts:185-199 | the converted error of every matched ion, in order |
| SpectrumError.ErrorsWithinRange | biowc-spectrum/src/BiowcSpectrumError.ts:185-207 | every converted error lies between `_minError` and `_maxError` |
| SpectrumError.YTicks | biowc-spectrum/src/BiowcSpectrumError.ts:467-468 | the y tick at f sits at `yStart - (1-f)*height` and reading the axis there gives its label `maxError - f*errorRange` |
| SpectrumError.YTickEnds | biowc-spectrum/src/BiowcSpectrumError.ts:617-621 | the first tick shows `maxError` at the top of the axis and the last shows `minError` at the baseline |
| SpectrumError.ErrorToYEnds | biowc-spectrum/src/BiowcSpectrumError.ts:276-281 | as written, `_errorToY` draws the error `-maxError` at the top of the axis and `errorRange - maxError` on the baseline |
| SpectrumError.ErrorDotMisplaced | biowc-spectrum/src/BiowcSpectrumError.ts:276-281 | as written, a dot for error e sits where the axis reads -e (see Findings) |
| SpectrumError.ErrorDotY | biowc-spectrum/src/BiowcSpectrumError.ts:521-523 | the corrected dot height, where the axis reads the dot's own error |
| SpectrumError.ZeroLine | biowc-spectrum/src/BiowcSpectrumError.ts:395-401 | the dashed zero line sits where the axis reads 0, where an exact match's dot lies |
| SpectrumError.ErrorDot | biowc-spectrum/src/BiowcSpectrumError.ts:521-523 | corrected: a dot sits at its peak's m/z column, at the height where the axis reads its converted error (as written, `_errorToY` puts it where the axis reads the negated error; see Findings) |
| SpectrumError.XTickPlacement | biowc-spectrum/src/BiowcSpectrumError.ts:440-441 | the x tick at fraction f sits at `xStartPadded + f*width` |
| SpectrumError.ErrorPanel.YTickWidth | biowc-spectrum/src/BiowcSpectrumError.ts:159-177 | the width set from outside, or the measured width while that is 0 |
| SpectrumError.ErrorPanel.SetYTickWidth | biowc-spectrum/src/BiowcSpectrumError.ts:179-181 | stores the width; a nonzero width is what the getter returns |
| SpectrumError.ErrorPanel.XTickLabelConsistent | biowc-spectrum/src/BiowcSpectrumError.ts:605-615 | under `translate(xScroll, 0) scale(xZoom, 1)`, the m/z an x label shows is drawn under its tick, using the `minMz`/`maxMz` properties |
| SpectrumError.ErrorPanel.TickLabelsAtRest | biowc-spectrum/src/BiowcSpectrumError.ts:605-615 | `XTickLabel` unzoomed and unscrolled: the x label at fraction f shows `minMz + f*mzRange` |
| SpectrumError.ErrorPanel.constructor | biowc-spectrum/src/BiowcSpectrumError.ts:301-303 | a new panel has x zoom 1 and x scroll 0, no stored tick width, and has dispatched nothing |
| SpectrumError.ErrorPanel.UpdateZoomAndScroll | biowc-spectrum/src/BiowcSpectrumError.ts:538-564 | x labels are current; exactly one event with x zoom and x scroll is logged unless suppressed |
| SpectrumError.ErrorPanel.Updated | biowc-spectrum/src/BiowcSpectrumError.ts:338-343 | re-labels and dispatches one event |
| SpectrumError.ErrorPanel.UpdateZoomScroll | biowc-spectrum/src/BiowcSpectrumError.ts:345-350 | stores x zoom and x scroll verbatim and dispatches nothing |
| SpectrumError.ErrorPanel.SetXZoom | biowc-spectrum/src/BiowcSpectrumError.ts:287-290 | stores the value and dispatches one event |
| SpectrumError.ErrorPanel.SetXScroll | biowc-spectrum/src/BiowcSpectrumError.ts:296-299 | stores the value unclipped and dispatches one event |
| SpectrumError.ErrorPanel.HandleXZoom | biowc-spectrum/src/BiowcSpectrumError.ts:580-591 | floored zoom product and clipped anchored scroll; the state stays clipped; one event; the point under the cursor stays put when neither floor nor clip acts |
| SpectrumError.ErrorPanel.HandleXScroll | biowc-spectrum/src/BiowcSpectrumError.ts:593-598 | x scroll moves by `delta*scrollSensitivity`, clipped; one event |
| SpectrumError.ErrorPanel.WheelView | biowc-spectrum/src/BiowcSpectrumError.ts:570-598 | the view a wheel gesture leaves: x zoom at least 1; clipped after a zoom or a scroll; a plain wheel keeps the zoom and changes nothing at zoom 1 |
| SpectrumError.ErrorPanel.WheelEvents | biowc-spectrum/src/BiowcSpectrumError.ts:570-578 | the events of a gesture: one carrying the new view with ctrl or when zoomed in, else none |
| SpectrumError.ErrorPanel.HandleWheel | biowc-spectrum/src/BiowcSpectrumError.ts:570-578 | the new view is `WheelView` and the events dispatched are `WheelEvents`. With ctrl it zooms x by `deltaX` about the cursor; otherwise it scrolls x by `deltaX` only when zoomed in, and changes nothing at zoom 1. `deltaY` never matters. `Valid` and clipping are kept |
| SpectrumView.SharedMinMz | biowc-spectrum/src/BiowcSpectrum.ts:79-84 | is an m/z of one of the spectra and at most every m/z of both; an empty spectrum is ignored |
| SpectrumView.SharedMaxMz | biowc-spectrum/src/BiowcSpectrum.ts:86-91 | is an m/z of one of the spectra and at least every m/z of both |
| SpectrumView.Normalized | biowc-spectrum/src/BiowcSpectrum.ts:93-109 | length preserved; unchanged without normalisation; with it each value times the maximum gives back the original |
| SpectrumView.NormalizedPeakIsOne | biowc-spectrum/src/BiowcSpectrum.ts:93-99 | with a positive maximum, normalised values are at most 1 and their maximum is exactly 1 |
| SpectrumView.UnmatchedIndices | biowc-spectrum/src/BiowcSpectrum.ts:129-131 | the ascending list of indices below n that no matched pair names |
| SpectrumView.HidePeakIndices | biowc-spectrum/src/BiowcSpectrum.ts:122-132 | empty unless unmatched peaks are hidden; then it holds, in ascending order, exactly the primary peaks that are the first component of no matched pair |
| SpectrumView.HideMirrorPeakIndices | biowc-spectrum/src/BiowcSpectrum.ts:134-144 | the same over the mirror peaks and the second component |
| SpectrumView.MirrorPanelHasPeaks | biowc-spectrum/src/BiowcSpectrum.ts:111-116 | `_hasMirrorSpectrum` holds exactly when the mirror panel would get non-empty m/z and intensity arrays |
| SpectrumView.SharedExtent | biowc-spectrum/src/BiowcSpectrum.ts:177-208 | all three panels resolve the same m/z bounds, which enclose every peak of both spectra |
| SpectrumView.ErrorForwardLosesY | biowc-spectrum/src/BiowcSpectrum.ts:158-162 | as written, the forward binds `undefined` to the peaks panel's y zoom and y scroll (see Findings) |
| SpectrumView.JsYLabelAgrees | biowc-spectrum/src/BiowcSpectrumPeaks.ts:684-699 | the y label in JavaScript arithmetic equals the panel model's label on finite numbers |
| SpectrumView.ErrorForwardBreaksY | biowc-spectrum/src/BiowcSpectrum.ts:158-162 | after that forward the stored y zoom and y scroll are NaN: every y label is NaN, a y zoom step keeps the zoom NaN, and `_yZoom > 1` is false, so y never scrolls again |
| SpectrumView.SpectrumChart.SyncedClipped | biowc-spectrum/src/BiowcSpectrum.ts:146-156 | with equal extents, panels in step are clipped together: the primary clipped implies all clipped, and the mirror clipped implies the primary clipped |
| SpectrumView.SpectrumChart.constructor | biowc-spectrum/src/BiowcSpectrum.ts:164-221 | creates the primary panel, the error panel iff there are matched ions and it is not hidden, and the mirror iff both mirror arrays are non-empty, each bound to its derived properties, in step and clipped |
| SpectrumView.SpectrumChart.HandleZoomScroll | biowc-spectrum/src/BiowcSpectrum.ts:146-150 | the mirror takes the event's x view, y zoom and negated y scroll; the error panel takes the x view; nothing is dispatched |
| SpectrumView.SpectrumChart.HandleMirrorZoomScroll | biowc-spectrum/src/BiowcSpectrum.ts:152-156 | the primary takes the mirror event's x view, y zoom and negated y scroll; the error panel takes the x view; nothing is dispatched |
| SpectrumView.SpectrumChart.HandleErrorZoomScroll | biowc-spectrum/src/BiowcSpectrum.ts:158-162 | corrected: both peak panels take the x view and keep their own y state; nothing is dispatched |
| SpectrumView.SpectrumChart.PrimaryWheel | biowc-spectrum/src/BiowcSpectrum.ts:146-150 | after a gesture over the primary panel and the forwarding of each event, the primary shows its `WheelView` and dispatched exactly its `WheelEvents` (two with ctrl), and the panels are in step. Only the primary's log grew. With equal extents, clipping is kept |
| SpectrumView.SpectrumChart.MirrorWheel | biowc-spectrum/src/BiowcSpectrum.ts:152-156 | the same for a gesture over the mirror panel; after an event the primary follows the mirror's final view, y scroll negated |
| SpectrumView.SpectrumChart.ErrorWheel | biowc-spectrum/src/BiowcSpectrum.ts:158-162 | the same for a gesture over the error panel: its `WheelView` and `WheelEvents` (one event with ctrl), the peaks panels take its x view, and their y state is untouched |
| SpectrumView.SpectrumChart.PrimaryUpdated | biowc-spectrum/src/BiowcSpectrumPeaks.ts:302-307 | a render of the primary panel re-labels it and dispatches its current view once; the chart forwards it, and on a chart in step no panel's view changes and no other panel dispatches |
| SpectrumView.SpectrumChart.MirrorUpdated | biowc-spectrum/src/BiowcSpectrumPeaks.ts:302-307 | the same for a render of the mirror panel |
| SpectrumView.SpectrumChart.ErrorUpdated | biowc-spectrum/src/BiowcSpectrumError.ts:338-343 | the same for a render of the error panel, with the corrected forward |
| SpectrumView.SpectrumChart.FirstUpdated | biowc-spectrum/src/BiowcSpectrum.ts:223-241 | every present panel gets the same y tick width. It is the largest of their previous widths, with an absent panel counting as 0. Only the width fields change |

`SpectrumPeaks.PeaksPanel.HandleWheel` promises the following:
- The new view is `WheelView` and the events dispatched are exactly `WheelEvents`.
- `Valid` and clipping are kept, and the log grows by what was dispatched.
- With ctrl, both axes zoom about the cursor. Two events are dispatched; the
  first carries the new x view and the old y view.
- Without ctrl, neither zoom changes. An axis scrolls only when its zoom is
  above 1, and each scroll dispatches one event.
- Every dispatched event carries zooms of at least 1.

## Left out

- Rendering, styling and DOM plumbing: Lit templates, SVG, `ResizeObserver`, listeners, `@query` lookups. Events are a ghost log per panel.
- Layout from font metrics and element sizes: axis starts and ends, tick widths from label lengths, the 3px offsets. Each panel takes a fixed `Layout`.
- Re-layout after the y tick width changes: `FirstUpdated` stores the width but does not recompute the plot area. The peaks panel never reads that width.
- `toPrecision` formatting of tick labels. The model keeps each label's numeric value.
- The tick count. `range` from the `utils` module is not part of this model. Panels take their tick fractions as a property, and the chart passes the five fractions 0, 1/4, 1/2, 3/4, 1, as an inclusive `range(0, 4)` gives them.
- IEEE floating point: values are reals.
  - Empty-array `Math.min`/`Math.max` (±Infinity) and division by a zero range (NaN) are excluded by the `Ready` and `Resolvable` preconditions.
  - A zero reference m/z in ppm or mmu (±Infinity or NaN in `transformMzError`) is excluded by the precondition of `TransformMzError` and by `ErrorsDefined`.
  - `partial_cmp` panics on NaN; reals have no NaN.
  - The `f32` error field is a real.
- `MassTolWindow::contains` is a function parameter of `match_peaks`. The construction of the window from the tolerance type is not modelled.
- `HashSet` iteration order: the pruning picks each next pair nondeterministically. The result is returned as a set, not as the source's vector.
- Annotation and error-dot transform strings (counter-scaling of glyphs). Rendering and updating even swap the two scale factors of the annotation transform.
- The regular expression that strips modifications from the peptide sequence. The chart takes the stripped sequence.
- The chart's `charge` and `mirrorCharge` properties: they are declared (`BiowcSpectrum.ts` lines 26 and 42) and bound to nothing.
- The chart's `mirrorPepSeq` property and the peptide-sequence component: `mirrorPepSeq` feeds only the second `biowc-pep-seq`, which is not part of this model. The mirror panel gets the primary's sequence, as the source binds it.
- Resizing: a panel's `ResizeObserver` requests a re-render, whose `updated` hook dispatches the panel's view. The model takes that as the `...Updated` methods with the layout unchanged; the new layout of a resize is not modelled.
- Property changes after the panels exist. Props are fixed at construction; a Lit re-render with new properties is not modelled.
- Spectrum fetching, the demo, `biowc-ms-lib`, and the annotation and panic-hook entry points of the Rust library: network I/O or calls into the chemistry library.
- SpectrumPeaks.RenderPeak: requires an intensity for peak `i` (`i < |p.intensities|`). The source maps over the m/z array and reads `this.intensities[i]` with no length check (`BiowcSpectrumPeaks.ts` lines 470-471), so past the end of the intensities it passes `undefined` to `_intensityToY`, which gives NaN (lines 664-670); the stem's tip and the annotation's `y` are then NaN and nothing throws. That NaN-tipped stem is not modelled, like the other IEEE cases above.
- SpectrumPeaks.PeaksPanel.UpdateZoomScroll: requires both zooms to be at least 1. The source stores any number; the panel's `Valid` needs zoom at least 1, and every forward in the chart meets this.
- SpectrumError.ErrorPanel.UpdateZoomScroll: requires the x zoom to be at least 1, for the same reason.
- SpectrumPeaks.PeaksPanel.SetXZoom: requires the new zoom to be at least 1 (the public setter accepts any number).
- SpectrumPeaks.PeaksPanel.SetYZoom: requires the new zoom to be at least 1, for the same reason.
- SpectrumError.ErrorPanel.SetXZoom: requires the new zoom to be at least 1, for the same reason.
- SpectrumView.SpectrumChart.PrimaryWheel: clipping is promised only when the panels have equal extents. A forward stores values unclipped, so a panel whose axis is shorter can end up outside its interval.
- SpectrumView.SpectrumChart.MirrorWheel: clipping is promised only with equal extents, as for the primary panel.
- SpectrumView.SpectrumChart.ErrorWheel: clipping is promised only with equal extents, as for the primary panel.
- PeakMatching.MatchPeaks: requires each side's m/z and intensity arrays to have equal lengths, which the source does not demand. The reference intensities are read when choosing each query's best reference and when pruning; the query intensities are read only when pruning conflicting pairs (`lib.rs` lines 220-222). A shorter array panics where it is indexed, and a longer one is partly ignored; neither case is modelled.
- PeakMatching.PruneConflicts: the result depends on the iteration order. The model states what holds for every order, not which order the hash set uses.
- The reference-side proposal compares query m/z values, not intensities, despite the message of its `expect`. It is modelled as the code does it.

## Findings

| source | as written | input that shows it | evidently intended | confidence | as-written member | corrected member |
|---|---|---|---|---|---|---|
| biowc-spectrum/src/BiowcSpectrumError.ts:276-281 | `_errorToY` places an error at `(error + maxError)/errorRange` of the axis height, while the y tick labels count down from `maxError` | matched ions with errors -5 and +5 ppm: the +5 ppm dot is drawn on the baseline, whose label reads -5, and the -5 ppm dot at the top, labelled +5 | place each dot where the axis reads its own error, at `maxError - error` | high, not executed | SpectrumError.ErrorDotMisplaced | SpectrumError.ErrorDotY |
| biowc-spectrum/src/BiowcSpectrum.ts:158-162 | `_handleErrorZoomScroll` calls the four-parameter `updateZoomScroll` of each peaks panel with only `(xZoom, xScroll)` | the error panel's first `updated()` at load, or any wheel zoom or scroll over it: each peaks panel's `_yZoom` and `_yScroll` become `undefined`, its next y tick labels and group transform are NaN, and its y axis never zooms or scrolls again | forward the x view only and keep each peaks panel's own y zoom and y scroll | high, not executed | SpectrumView.ErrorForwardBreaksY | SpectrumView.SpectrumChart.HandleErrorZoomScroll |

=== FILE: fragment_peak.dfy ===
/**
 * The records the peak-annotation library hands to the charts: a matched
 * fragment peak, the pair of indices of two matched peaks, and the conversion
 * from the annotator's peak record (whose ion type is an enumeration) to the
 * exported record (whose ion type is a string).
 */
module FragmentPeak {
  import opened Util

  /** Rust `u16` and `i8`, the widths of the record's small integer fields. */
  type U16 = x: int | 0 <= x < 0x1_0000
  type I8 = x: int | -0x80 <= x < 0x80

  /** The fragment ion series of the annotator library. */
  datatype FragmentIonSeries =
    | A | A_H2O | A_NH3
    | B | B_H2O | B_NH3
    | C | C_Dot | C_M1 | C_P1 | C_P2 | C_H2O | C_NH3
    | D | V | W
    | X | X_H2O | X_NH3
    | Y | Y_H2O | Y_NH3 | YA | YB
    | Z | Z_H2O | Z_NH3 | Z_Dot | Z_P1 | Z_P2 | Z_P3
    | Immonium

  /** The name under which the exported record carries an ion series. */
  function SeriesName(s: FragmentIonSeries): string
  {
    match s
    case A => "a"
    case A_H2O => "a-H2O"
    case A_NH3 => "a-NH3"
    case B => "b"
    case B_H2O => "b-H2O"
    case B_NH3 => "b-NH3"
    case C => "c"
    case C_Dot => "c_dot"
    case C_M1 => "c_m1"
    case C_P1 => "c_p1"
    case C_P2 => "c_p2"
    case C_H2O => "c-H2O"
    case C_NH3 => "c-NH3"
    case D => "d"
    case V => "v"
    case W => "w"
    case X => "x"
    case X_H2O => "x-H2O"
    case X_NH3 => "x-NH3"
    case Y => "y"
    case Y_H2O => "y-H2O"
    case Y_NH3 => "y-NH3"
    case YA => "ya"
    case YB => "yb"
    case Z => "z"
    case Z_H2O => "z-H2O"
    case Z_NH3 => "z-NH3"
    case Z_Dot => "z_dot"
    case Z_P1 => "z_p1"
    case Z_P2 => "z_p2"
    case Z_P3 => "z_p3"
    case Immonium => "immonium"
  }

  /** Reads a series name back; any other string names no series. */
  function SeriesFromName(name: string): Option<FragmentIonSeries>
  {
    match name
    case "a" => Some(A)
    case "a-H2O" => Some(A_H2O)
    case "a-NH3" => Some(A_NH3)
    case "b" => Some(B)
    case "b-H2O" => Some(B_H2O)
    case "b-NH3" => Some(B_NH3)
    case "c" => Some(C)
    case "c_dot" => Some(C_Dot)
    case "c_m1" => Some(C_M1)
    case "c_p1" => Some(C_P1)
    case "c_p2" => Some(C_P2)
    case "c-H2O" => Some(C_H2O)
    case "c-NH3" => Some(C_NH3)
    case "d" => Some(D)
    case "v" => Some(V)
    case "w" => Some(W)
    case "x" => Some(X)
    case "x-H2O" => Some(X_H2O)
    case "x-NH3" => Some(X_NH3)
    case "y" => Some(Y)
    case "y-H2O" => Some(Y_H2O)
    case "y-NH3" => Some(Y_NH3)
    case "ya" => Some(YA)
    case "yb" => Some(YB)
    case "z" => Some(Z)
    case "z-H2O" => Some(Z_H2O)
    case "z-NH3" => Some(Z_NH3)
    case "z_dot" => Some(Z_Dot)
    case "z_p1" => Some(Z_P1)
    case "z_p2" => Some(Z_P2)
    case "z_p3" => Some(Z_P3)
    case "immonium" => Some(Immonium)
    case _ => None
  }

  /** Every series name reads back as its series, so distinct series get distinct names. */
  lemma SeriesNameRoundTrip(s: FragmentIonSeries)
    ensures SeriesFromName(SeriesName(s)) == Some(s)
  {
  }

  lemma SeriesNameInjective(s: FragmentIonSeries, t: FragmentIonSeries)
    ensures SeriesName(s) == SeriesName(t) ==> s == t
  {
    SeriesNameRoundTrip(s);
    SeriesNameRoundTrip(t);
  }

  /** A peak as the annotator reports it. */
  datatype MatchedPeak = MatchedPeak(
    peakIndex: nat, peakMz: real, peakIntensity: real, theoMz: real, mzError: real,
    charge: I8, ionType: FragmentIonSeries, fragIndex: U16, aaPosition: U16)

  /**
   * A matched peak as exported to the charts. `fragIndex` is the index of the
   * m/z value in the fragmentation table (from 0), `aaPosition` the residue
   * position in the peptide (from 1).
   */
  datatype MatchedFragmentPeak = MatchedFragmentPeak(
    peakIndex: nat, peakMz: real, peakIntensity: real, theoMz: real, mzError: real,
    charge: I8, ionType: string, fragIndex: U16, aaPosition: U16)

  /** A query peak index paired with a reference peak index. */
  datatype MatchedPeakIndex = MatchedPeakIndex(query: nat, reference: nat)

  /** `Into<MatchedFragmentPeak>`: copies every field and names the ion series. */
  function ToFragmentPeak(m: MatchedPeak): (r: MatchedFragmentPeak)
    ensures SeriesFromName(r.ionType) == Some(m.ionType)
    ensures FromFragmentPeak(r) == Some(m)
  {
    SeriesNameRoundTrip(m.ionType);
    MatchedFragmentPeak(m.peakIndex, m.peakMz, m.peakIntensity, m.theoMz, m.mzError,
                        m.charge, SeriesName(m.ionType), m.fragIndex, m.aaPosition)
  }

  /** The inverse of the conversion, defined where the ion type names a series. */
  function FromFragmentPeak(r: MatchedFragmentPeak): Option<MatchedPeak>
  {
    match SeriesFromName(r.ionType)
    case None => None
    case Some(s) =>
      Some(MatchedPeak(r.peakIndex, r.peakMz, r.peakIntensity, r.theoMz, r.mzError,
                       r.charge, s, r.fragIndex, r.aaPosition))
  }

  /** The conversion loses nothing: two annotator peaks with the same export are the same peak. */
  lemma ToFragmentPeakInjective(m: MatchedPeak, n: MatchedPeak)
    ensures ToFragmentPeak(m) == ToFragmentPeak(n) ==> m == n
  {
    assert FromFragmentPeak(ToFragmentPeak(m)) == Some(m);
    assert FromFragmentPeak(ToFragmentPeak(n)) == Some(n);
  }
}

=== FILE: numerals.dfy ===
/**
 * The decimal text of an integer as a template literal writes it, a run of a
 * repeated character (`String.prototype.repeat`), and the readers that take
 * both back apart.
 */
module Numerals {

  /** The decimal digit character for `d`. */
  function DigitChar(d: nat): (c: char)
    requires d < 10
    ensures '0' <= c <= '9'
    ensures (c as int) - ('0' as int) == d
  {
    (('0' as int) + d) as char
  }

  predicate IsDigits(s: string)
  {
    forall i :: 0 <= i < |s| ==> '0' <= s[i] <= '9'
  }

  /** An optional minus sign followed by digits. */
  predicate IsIntLiteral(s: string)
  {
    IsDigits(s) || (|s| > 0 && s[0] == '-' && IsDigits(s[1..]))
  }

  /** The decimal text of a natural number, without leading zeros. */
  function NatToString(n: nat): (s: string)
    ensures |s| >= 1 && IsDigits(s)
    ensures |s| > 1 ==> s[0] != '0'
    decreases n
  {
    if n < 10 then [DigitChar(n)] else NatToString(n / 10) + [DigitChar(n % 10)]
  }

  /** The value of a string of decimal digits. */
  function ParseDigits(s: string): nat
    requires IsDigits(s)
    decreases |s|
  {
    if |s| == 0 then 0
    else 10 * ParseDigits(s[..|s| - 1]) + ((s[|s| - 1] as int) - ('0' as int))
  }

  lemma {:induction false} NatToStringRoundTrip(n: nat)
    ensures ParseDigits(NatToString(n)) == n
    decreases n
  {
    if n >= 10 {
      var s := NatToString(n);
      assert s[..|s| - 1] == NatToString(n / 10);
      NatToStringRoundTrip(n / 10);
    }
  }

  /** `${n}` for an integer `n`. */
  function IntToString(n: int): (s: string)
    ensures IsIntLiteral(s)
    ensures |s| > 0 && '0' <= s[|s| - 1] <= '9'
  {
    if n < 0 then "-" + NatToString(-n) else NatToString(n)
  }

  function ParseInt(s: string): int
    requires IsIntLiteral(s)
  {
    if |s| > 0 && s[0] == '-' then -(ParseDigits(s[1..]) as int) else ParseDigits(s)
  }

  lemma IntToStringRoundTrip(n: int)
    ensures ParseInt(IntToString(n)) == n
  {
    if n < 0 {
      assert IntToString(n)[1..] == NatToString(-n);
      NatToStringRoundTrip(-n);
    } else {
      NatToStringRoundTrip(n);
    }
  }

  /** `c.repeat(n)` */
  function Repeat(c: char, n: nat): (s: string)
    ensures |s| == n
    ensures forall i :: 0 <= i < n ==> s[i] == c
    decreases n
  {
    if n == 0 then "" else Repeat(c, n - 1) + [c]
  }

  /** How many copies of `c` end `s`. */
  function TrailingCount(s: string, c: char): (k: nat)
    ensures k <= |s|
    ensures forall i :: |s| - k <= i < |s| ==> s[i] == c
    ensures k < |s| ==> s[|s| - k - 1] != c
    decreases |s|
  {
    if |s| == 0 || s[|s| - 1] != c then 0 else TrailingCount(s[..|s| - 1], c) + 1
  }

  /** A run of `n` copies of `c` appended to text that does not end in `c` is read back as `n`. */
  lemma {:induction false} TrailingCountOfRepeat(s: string, c: char, n: nat)
    requires |s| == 0 || s[|s| - 1] != c
    ensures TrailingCount(s + Repeat(c, n), c) == n
    decreases n
  {
    if n > 0 {
      assert (s + Repeat(c, n))[..|s| + n - 1] == s + Repeat(c, n - 1);
      TrailingCountOfRepeat(s, c, n - 1);
    }
  }
}

=== FILE: peak_index.dfy ===
/**
 * The lookup from peak position to matched ion that the peak panels consult
 * while drawing, and the fixed colour of each annotated ion type.
 */
module PeakIndex {
  import opened FragmentPeak

  /**
   * `indexMatchedIons`: a left fold over the matched ions into a fresh map,
   * each step storing the ion under its `peakIndex`. A later ion with the same
   * `peakIndex` overwrites an earlier one.
   */
  function IndexMatchedIons(ions: seq<MatchedFragmentPeak>): (m: map<nat, MatchedFragmentPeak>)
    ensures m.Keys == set ion | ion in ions :: ion.peakIndex
    ensures forall k :: k in m ==> m[k].peakIndex == k && m[k] in ions
    decreases |ions|
  {
    if ions == [] then map[]
    else
      var init, last := ions[..|ions| - 1], ions[|ions| - 1];
      assert forall ion :: ion in ions <==> ion in init || ion == last;
      IndexMatchedIons(init)[last.peakIndex := last]
  }

  /** The position of the last ion whose `peakIndex` is `k`, or -1 if there is none. */
  function LastIndexWith(ions: seq<MatchedFragmentPeak>, k: nat): (j: int)
    ensures -1 <= j < |ions|
    ensures j >= 0 ==> ions[j].peakIndex == k
    ensures forall i :: j < i < |ions| ==> ions[i].peakIndex != k
    decreases |ions|
  {
    if ions == [] then -1
    else if ions[|ions| - 1].peakIndex == k then |ions| - 1
    else LastIndexWith(ions[..|ions| - 1], k)
  }

  /**
   * Last write wins: a peak index is a key exactly when some ion carries it,
   * and the ion stored there is the last such ion of the list.
   */
  lemma {:induction false} LastWriteWins(ions: seq<MatchedFragmentPeak>, k: nat)
    ensures k in IndexMatchedIons(ions) <==> LastIndexWith(ions, k) >= 0
    ensures k in IndexMatchedIons(ions) ==> IndexMatchedIons(ions)[k] == ions[LastIndexWith(ions, k)]
    decreases |ions|
  {
    if ions != [] {
      var init := ions[..|ions| - 1];
      if ions[|ions| - 1].peakIndex != k {
        LastWriteWins(init, k);
      }
    }
  }

  /** The empty list indexes to the empty map. */
  lemma IndexOfNoIons()
    ensures IndexMatchedIons([]) == map[]
  {
  }

  /** `PEAK_COLOR_MAP`: b ions are drawn blue and y ions red. */
  const PeakColorMap: map<string, string> := map["b" := "#0000ff", "y" := "#ff0000"]

  /** The stroke of an annotated peak: its colour from the table, grey for any other ion type. */
  function PeakStroke(ionType: string): (c: string)
    ensures ionType == "b" ==> c == "#0000ff"
    ensures ionType == "y" ==> c == "#ff0000"
    ensures ionType != "b" && ionType != "y" ==> c == "grey"
  {
    if ionType in PeakColorMap then PeakColorMap[ionType] else "grey"
  }

  /** The colour table has exactly the two entries b and y. */
  lemma PeakColorMapKeys()
    ensures PeakColorMap.Keys == {"b", "y"}
  {
  }
}

=== FILE: peak_matching.dfy ===
/**
 * `match_peaks`: pairs the peaks of a query spectrum with the peaks of a
 * reference spectrum. Each query peak proposes the in-tolerance reference peak
 * of largest intensity, each reference peak proposes the in-tolerance query
 * peak of largest m/z, and conflicting proposals (two pairs sharing a query
 * or a reference index) are pruned by comparing their intensity sums.
 *
 * Whether two m/z values lie within the mass tolerance window is decided by
 * the annotation library; here it is the parameter `contains(queryMz,
 * referenceMz)`, about which nothing is assumed.
 */
module PeakMatching {
  import opened Util
  import opened FragmentPeak

  /**
   * What `max_by` returns over the indices selected by `mask`, visited in
   * increasing order: a selected index of maximal score, and among equal
   * maxima the last one.
   */
  predicate IsLastMax(mask: seq<bool>, score: seq<real>, j: int)
  {
    && 0 <= j < |mask| && j < |score| && mask[j]
    && (forall k :: 0 <= k < |mask| && k < |score| && mask[k] ==> score[k] <= score[j])
    && (forall k :: j < k < |mask| && k < |score| && mask[k] ==> score[k] < score[j])
  }

  /** At most one index is the last maximum. */
  lemma IsLastMaxUnique(mask: seq<bool>, score: seq<real>, i: int, j: int)
    requires IsLastMax(mask, score, i) && IsLastMax(mask, score, j)
    ensures i == j
  {
  }

  /** The fold `max_by` performs: None when nothing is selected, otherwise the last maximum. */
  function LastArgMax(mask: seq<bool>, score: seq<real>): (r: Option<nat>)
    requires |mask| == |score|
    ensures r.None? <==> forall k :: 0 <= k < |mask| ==> !mask[k]
    ensures r.Some? ==> IsLastMax(mask, score, r.value)
    decreases |mask|
  {
    if |mask| == 0 then None
    else
      var n := |mask| - 1;
      var prev := LastArgMax(mask[..n], score[..n]);
      if mask[n] && (prev.None? || score[n] >= score[prev.value]) then Some(n) else prev
  }

  /**
   * The scan the iterator chain performs for one peak: collect the selected
   * indices in increasing order and keep the last maximal one.
   */
  method MaxByLast(mask: seq<bool>, score: seq<real>) returns (best: Option<nat>)
    requires |mask| == |score|
    ensures best == LastArgMax(mask, score)
  {
    best := None;
    for k := 0 to |mask|
      invariant best == LastArgMax(mask[..k], score[..k])
    {
      assert mask[..k + 1][..k] == mask[..k] && score[..k + 1][..k] == score[..k];
      if mask[k] && (best.None? || score[k] >= score[best.value]) {
        best := Some(k);
      }
    }
    assert mask[..|mask|] == mask && score[..|score|] == score;
  }

  /** Which reference peaks lie within tolerance of query m/z `q`. */
  function QueryMask(contains: (real, real) -> bool, q: real, referenceMzs: seq<real>): (m: seq<bool>)
    ensures |m| == |referenceMzs|
    ensures forall j :: 0 <= j < |m| ==> m[j] == contains(q, referenceMzs[j])
  {
    seq(|referenceMzs|, j requires 0 <= j < |referenceMzs| => contains(q, referenceMzs[j]))
  }

  /** Which query peaks lie within tolerance of reference m/z `r`. */
  function ReferenceMask(contains: (real, real) -> bool, queryMzs: seq<real>, r: real): (m: seq<bool>)
    ensures |m| == |queryMzs|
    ensures forall j :: 0 <= j < |m| ==> m[j] == contains(queryMzs[j], r)
  {
    seq(|queryMzs|, j requires 0 <= j < |queryMzs| => contains(queryMzs[j], r))
  }

  /** The query side's proposals: query i with its most intense in-tolerance reference peak. */
  function QueryCandidates(contains: (real, real) -> bool, queryMzs: seq<real>,
                           referenceMzs: seq<real>, referenceIntensities: seq<real>): set<MatchedPeakIndex>
    requires |referenceIntensities| == |referenceMzs|
  {
    set i | 0 <= i < |queryMzs| && LastArgMax(QueryMask(contains, queryMzs[i], referenceMzs), referenceIntensities).Some?
      :: MatchedPeakIndex(i, LastArgMax(QueryMask(contains, queryMzs[i], referenceMzs), referenceIntensities).value)
  }

  /** The reference side's proposals: reference i with its in-tolerance query peak of largest m/z. */
  function ReferenceCandidates(contains: (real, real) -> bool, queryMzs: seq<real>,
                               referenceMzs: seq<real>): set<MatchedPeakIndex>
  {
    set i | 0 <= i < |referenceMzs| && LastArgMax(ReferenceMask(contains, queryMzs, referenceMzs[i]), queryMzs).Some?
      :: MatchedPeakIndex(LastArgMax(ReferenceMask(contains, queryMzs, referenceMzs[i]), queryMzs).value, i)
  }

  /**
   * Each query peak proposes at most one pair; the pair is within tolerance,
   * its reference peak is the most intense within tolerance (the last such on
   * ties), and a query peak proposes a pair exactly when some reference peak
   * lies within tolerance.
   */
  lemma QueryCandidatesAreBest(contains: (real, real) -> bool, queryMzs: seq<real>,
                               referenceMzs: seq<real>, referenceIntensities: seq<real>)
    requires |referenceIntensities| == |referenceMzs|
    ensures forall p :: p in QueryCandidates(contains, queryMzs, referenceMzs, referenceIntensities) ==>
      && p.query < |queryMzs| && p.reference < |referenceMzs|
      && contains(queryMzs[p.query], referenceMzs[p.reference])
      && (forall j :: 0 <= j < |referenceMzs| && contains(queryMzs[p.query], referenceMzs[j]) ==>
            referenceIntensities[j] <= referenceIntensities[p.reference])
      && (forall j :: p.reference < j < |referenceMzs| && contains(queryMzs[p.query], referenceMzs[j]) ==>
            referenceIntensities[j] < referenceIntensities[p.reference])
    ensures forall p, p' ::
      (p in QueryCandidates(contains, queryMzs, referenceMzs, referenceIntensities) &&
       p' in QueryCandidates(contains, queryMzs, referenceMzs, referenceIntensities) && p.query == p'.query)
      ==> p == p'
    ensures forall i :: 0 <= i < |queryMzs| ==>
      ((exists p :: p in QueryCandidates(contains, queryMzs, referenceMzs, referenceIntensities) && p.query == i)
       <==> (exists j :: 0 <= j < |referenceMzs| && contains(queryMzs[i], referenceMzs[j])))
  {
    var qc := QueryCandidates(contains, queryMzs, referenceMzs, referenceIntensities);
    forall i | 0 <= i < |queryMzs|
      ensures (exists p :: p in qc && p.query == i)
              <==> (exists j :: 0 <= j < |referenceMzs| && contains(queryMzs[i], referenceMzs[j]))
    {
      var best := LastArgMax(QueryMask(contains, queryMzs[i], referenceMzs), referenceIntensities);
      if best.Some? {
        assert MatchedPeakIndex(i, best.value) in qc;
      }
    }
  }

  /**
   * Each reference peak proposes at most one pair; the pair is within
   * tolerance, its query peak has the largest m/z within tolerance (the last
   * such on ties), and a reference peak proposes a pair exactly when some
   * query peak lies within tolerance.
   */
  lemma ReferenceCandidatesAreBest(contains: (real, real) -> bool, queryMzs: seq<real>,
                                   referenceMzs: seq<real>)
    ensures forall p :: p in ReferenceCandidates(contains, queryMzs, referenceMzs) ==>
      && p.query < |queryMzs| && p.reference < |referenceMzs|
      && contains(queryMzs[p.query], referenceMzs[p.reference])
      && (forall j :: 0 <= j < |queryMzs| && contains(queryMzs[j], referenceMzs[p.reference]) ==>
            queryMzs[j] <= queryMzs[p.query])
      && (forall j :: p.query < j < |queryMzs| && contains(queryMzs[j], referenceMzs[p.reference]) ==>
            queryMzs[j] < queryMzs[p.query])
    ensures forall p, p' ::
      (p in ReferenceCandidates(contains, queryMzs, referenceMzs) &&
       p' in ReferenceCandidates(contains, queryMzs, referenceMzs) && p.reference == p'.reference)
      ==> p == p'
    ensures forall i :: 0 <= i < |referenceMzs| ==>
      ((exists p :: p in ReferenceCandidates(contains, queryMzs, referenceMzs) && p.reference == i)
       <==> (exists j :: 0 <= j < |queryMzs| && contains(queryMzs[j], referenceMzs[i])))
  {
    var rc := ReferenceCandidates(contains, queryMzs, referenceMzs);
    forall i | 0 <= i < |referenceMzs|
      ensures (exists p :: p in rc && p.reference == i)
              <==> (exists j :: 0 <= j < |queryMzs| && contains(queryMzs[j], referenceMzs[i]))
    {
      var best := LastArgMax(ReferenceMask(contains, queryMzs, referenceMzs[i]), queryMzs);
      if best.Some? {
        assert MatchedPeakIndex(best.value, i) in rc;
      }
    }
  }

  /** The query-side proposals, one query peak at a time. */
  method QueryMatches(contains: (real, real) -> bool, queryMzs: seq<real>,
                      referenceMzs: seq<real>, referenceIntensities: seq<real>)
    returns (matches: set<MatchedPeakIndex>)
    requires |referenceIntensities| == |referenceMzs|
    ensures matches == QueryCandidates(contains, queryMzs, referenceMzs, referenceIntensities)
  {
    matches := {};
    for i := 0 to |queryMzs|
      invariant matches == set i' | 0 <= i' < i && LastArgMax(QueryMask(contains, queryMzs[i'], referenceMzs), referenceIntensities).Some?
        :: MatchedPeakIndex(i', LastArgMax(QueryMask(contains, queryMzs[i'], referenceMzs), referenceIntensities).value)
    {
      var best := MaxByLast(QueryMask(contains, queryMzs[i], referenceMzs), referenceIntensities);
      if best.Some? {
        matches := matches + {MatchedPeakIndex(i, best.value)};
      }
    }
  }

  /** The reference-side proposals, one reference peak at a time. */
  method ReferenceMatches(contains: (real, real) -> bool, queryMzs: seq<real>, referenceMzs: seq<real>)
    returns (matches: set<MatchedPeakIndex>)
    ensures matches == ReferenceCandidates(contains, queryMzs, referenceMzs)
  {
    matches := {};
    for i := 0 to |referenceMzs|
      invariant matches == set i' | 0 <= i' < i && LastArgMax(ReferenceMask(contains, queryMzs, referenceMzs[i']), queryMzs).Some?
        :: MatchedPeakIndex(LastArgMax(ReferenceMask(contains, queryMzs, referenceMzs[i']), queryMzs).value, i')
    {
      var best := MaxByLast(ReferenceMask(contains, queryMzs, referenceMzs[i]), queryMzs);
      if best.Some? {
        matches := matches + {MatchedPeakIndex(best.value, i)};
      }
    }
  }

  /** Both indices of a pair address their spectra's intensity arrays. */
  predicate Indexes(p: MatchedPeakIndex, queryIntensities: seq<real>, referenceIntensities: seq<real>)
  {
    p.query < |queryIntensities| && p.reference < |referenceIntensities|
  }

  /** The summed intensity of the two peaks of a pair, by which conflicts are decided. */
  function IntensitySum(p: MatchedPeakIndex, queryIntensities: seq<real>, referenceIntensities: seq<real>): real
    requires Indexes(p, queryIntensities, referenceIntensities)
  {
    queryIntensities[p.query] + referenceIntensities[p.reference]
  }

  /** Two distinct pairs that share a query or a reference peak. */
  predicate Conflicting(p: MatchedPeakIndex, o: MatchedPeakIndex)
  {
    p != o && (p.query == o.query || p.reference == o.reference)
  }

  /** No peak of either spectrum is used by two pairs. */
  predicate OneToOne(s: set<MatchedPeakIndex>)
  {
    forall p, o :: p in s && o in s && p != o ==> p.query != o.query && p.reference != o.reference
  }

  /** `p` conflicts with a candidate whose intensity sum is at least its own. */
  ghost predicate Outweighed(p: MatchedPeakIndex, candidates: set<MatchedPeakIndex>,
                             queryIntensities: seq<real>, referenceIntensities: seq<real>)
  {
    exists c :: c in candidates && Conflicting(p, c)
      && Indexes(p, queryIntensities, referenceIntensities) && Indexes(c, queryIntensities, referenceIntensities)
      && IntensitySum(p, queryIntensities, referenceIntensities) <= IntensitySum(c, queryIntensities, referenceIntensities)
  }

  /**
   * The conflict pruning: for every pair of the candidates (in the hash set's
   * unspecified order, each chosen here by `:|`) and every pair still present
   * when that pair's turn comes, two distinct pairs sharing an index lose the
   * one whose intensity sum is not strictly larger. A pair already removed is
   * still compared, as the outer loop walks a copy of the original set.
   */
  method PruneConflicts(candidates: set<MatchedPeakIndex>, queryIntensities: seq<real>,
                        referenceIntensities: seq<real>)
    returns (unique: set<MatchedPeakIndex>)
    requires forall p :: p in candidates ==> Indexes(p, queryIntensities, referenceIntensities)
    ensures unique <= candidates
    ensures OneToOne(unique)
    ensures forall p :: p in candidates && p !in unique ==>
      Outweighed(p, candidates, queryIntensities, referenceIntensities)
    ensures forall p :: p in candidates && (forall c :: c in candidates ==> !Conflicting(p, c)) ==> p in unique
    ensures forall p ::
      (p in candidates &&
       forall c :: c in candidates && Conflicting(p, c) ==>
         IntensitySum(c, queryIntensities, referenceIntensities) < IntensitySum(p, queryIntensities, referenceIntensities))
      ==> p in unique
  {
    unique := candidates;
    var outer := candidates;
    while outer != {}
      invariant outer <= candidates && unique <= candidates
      invariant forall p, o :: p in candidates && p !in outer && p in unique && o in unique ==> !Conflicting(p, o)
      invariant forall p :: p in candidates && p !in unique ==>
        Outweighed(p, candidates, queryIntensities, referenceIntensities)
      decreases outer
    {
      ghost var w := Pick(outer);
      var mp :| mp in outer;
      outer := outer - {mp};
      var inner := unique;
      while inner != {}
        invariant inner <= candidates && unique <= candidates
        invariant forall o :: o in unique && o !in inner && mp in unique ==> !Conflicting(mp, o)
        invariant forall p, o :: p in candidates && p !in outer && p != mp && p in unique && o in unique ==>
          !Conflicting(p, o)
        invariant forall p :: p in candidates && p !in unique ==>
          Outweighed(p, candidates, queryIntensities, referenceIntensities)
        decreases inner
      {
        ghost var w' := Pick(inner);
        var omp :| omp in inner;
        inner := inner - {omp};
        if mp == omp {
        } else if mp.query == omp.query || mp.reference == omp.reference {
          var sumMatched := queryIntensities[mp.query] + referenceIntensities[mp.reference];
          var sumOther := queryIntensities[omp.query] + referenceIntensities[omp.reference];
          if sumMatched > sumOther {
            assert Conflicting(omp, mp);
            unique := unique - {omp};
          } else {
            assert Conflicting(mp, omp);
            unique := unique - {mp};
          }
        }
      }
    }
  }

  /**
   * `match_peaks`: the union of both sides' proposals, pruned to a one-to-one
   * matching. The result is returned as a set, the order of the source's
   * vector being that of a hash set.
   */
  method MatchPeaks(queryMzs: seq<real>, queryIntensities: seq<real>,
                    referenceMzs: seq<real>, referenceIntensities: seq<real>,
                    contains: (real, real) -> bool)
    returns (matches: set<MatchedPeakIndex>)
    requires |queryIntensities| == |queryMzs| && |referenceIntensities| == |referenceMzs|
    ensures matches <= QueryCandidates(contains, queryMzs, referenceMzs, referenceIntensities)
                     + ReferenceCandidates(contains, queryMzs, referenceMzs)
    ensures OneToOne(matches)
    ensures forall p :: p in matches ==>
      p.query < |queryMzs| && p.reference < |referenceMzs| && contains(queryMzs[p.query], referenceMzs[p.reference])
    ensures forall p :: p in QueryCandidates(contains, queryMzs, referenceMzs, referenceIntensities)
                          + ReferenceCandidates(contains, queryMzs, referenceMzs) && p !in matches ==>
      Outweighed(p, QueryCandidates(contains, queryMzs, referenceMzs, referenceIntensities)
                    + ReferenceCandidates(contains, queryMzs, referenceMzs), queryIntensities, referenceIntensities)
  {
    var queryMatches := QueryMatches(contains, queryMzs, referenceMzs, referenceIntensities);
    var referenceMatches := ReferenceMatches(contains, queryMzs, referenceMzs);
    QueryCandidatesAreBest(contains, queryMzs, referenceMzs, referenceIntensities);
    ReferenceCandidatesAreBest(contains, queryMzs, referenceMzs);
    matches := PruneConflicts(queryMatches + referenceMatches, queryIntensities, referenceIntensities);
  }
}

=== FILE: spectrum_error.dfy ===
/**
 * `BiowcSpectrumError`: the strip under the spectrum that plots each matched
 * ion's m/z error (in ppm, Da or mmu) against its m/z. It zooms and scrolls
 * along x only; its y axis is fixed.
 */
module SpectrumError {
  import opened Util
  import opened Viewport
  import opened FragmentPeak

  /** `MzErrorType`; `Unrecognised` stands for any other string the attribute may carry. */
  datatype MzErrorType = Ppm | Da | Mmu | Unrecognised

  /** `getMzErrorTypeLabel` */
  function MzErrorTypeLabel(t: MzErrorType): (s: string)
    ensures "Error" <= s
    ensures s == "Error" <==> t == Unrecognised
  {
    match t
    case Ppm => "Error (ppm)"
    case Da => "Error (Da)"
    case Mmu => "Error (mmu)"
    case Unrecognised => "Error"
  }

  /** Every error type has its own axis label. */
  lemma MzErrorTypeLabelsDistinct(s: MzErrorType, t: MzErrorType)
    ensures MzErrorTypeLabel(s) == MzErrorTypeLabel(t) ==> s == t
  {
  }

  /** `_errorLabel`: the `errorLabel` property unless it is empty, else the type's label. */
  function ErrorLabel(errorLabel: string, t: MzErrorType): (s: string)
    ensures errorLabel != "" ==> s == errorLabel
    ensures errorLabel == "" ==> s == MzErrorTypeLabel(t)
  {
    if errorLabel != "" then errorLabel else MzErrorTypeLabel(t)
  }

  /**
   * `transformMzError`: the error in the chosen unit. ppm and mmu are relative
   * to the reference m/z (parts per million, and thousandths per unit m/z);
   * Da, and any unrecognised type, leave the error as it is.
   */
  function TransformMzError(referenceMz: real, mzError: real, t: MzErrorType): real
    requires t == Ppm || t == Mmu ==> referenceMz != 0.0
  {
    match t
    case Ppm => (mzError / referenceMz) * 1000000.0
    case Da => mzError
    case Mmu => (mzError / referenceMz) * 1000.0
    case Unrecognised => mzError
  }

  /** What each unit means: scaled back by the reference m/z, ppm and mmu give the error times 10^6 and 10^3. */
  lemma TransformMzErrorUnits(referenceMz: real, mzError: real, t: MzErrorType)
    requires t == Ppm || t == Mmu ==> referenceMz != 0.0
    ensures t == Ppm ==> TransformMzError(referenceMz, mzError, t) * referenceMz == mzError * 1000000.0
    ensures t == Mmu ==> TransformMzError(referenceMz, mzError, t) * referenceMz == mzError * 1000.0
    ensures t == Da || t == Unrecognised ==> TransformMzError(referenceMz, mzError, t) == mzError
  {
  }

  /** The conversion keeps an exact match at zero, and keeps the error's sign when the reference m/z is positive. */
  lemma TransformMzErrorSign(referenceMz: real, mzError: real, t: MzErrorType)
    requires t == Ppm || t == Mmu ==> referenceMz != 0.0
    ensures TransformMzError(referenceMz, mzError, t) == 0.0 <==> mzError == 0.0
    ensures referenceMz > 0.0 ==> (TransformMzError(referenceMz, mzError, t) > 0.0 <==> mzError > 0.0)
  {
    if t == Ppm || t == Mmu {
      var q := mzError / referenceMz;
      assert q * referenceMz == mzError;
    }
  }

  /** The same error reads 1000 times larger in ppm than in mmu. */
  lemma PpmIsThousandMmu(referenceMz: real, mzError: real)
    requires referenceMz != 0.0
    ensures TransformMzError(referenceMz, mzError, Ppm) == 1000.0 * TransformMzError(referenceMz, mzError, Mmu)
  {
  }

  /** The panel's properties, as set by the enclosing chart. */
  datatype ErrorProps = ErrorProps(
    matchedIons: seq<MatchedFragmentPeak>,
    minMz: real,
    maxMz: real,
    mzErrorType: MzErrorType,
    errorLabel: string,
    zoomSensitivity: real,
    scrollSensitivity: real,
    xTickFractions: seq<real>)

  /** Every ion's error can be converted (a relative unit needs a nonzero m/z). */
  predicate ErrorsDefined(p: ErrorProps)
  {
    p.mzErrorType == Ppm || p.mzErrorType == Mmu ==> forall i :: 0 <= i < |p.matchedIons| ==> p.matchedIons[i].peakMz != 0.0
  }

  /** The converted error of every matched ion, in list order. */
  function Errors(p: ErrorProps): (es: seq<real>)
    requires ErrorsDefined(p)
    ensures |es| == |p.matchedIons|
    ensures forall i :: 0 <= i < |es| ==>
      es[i] == TransformMzError(p.matchedIons[i].peakMz, p.matchedIons[i].mzError, p.mzErrorType)
  {
    seq(|p.matchedIons|, i requires 0 <= i < |p.matchedIons| =>
      TransformMzError(p.matchedIons[i].peakMz, p.matchedIons[i].mzError, p.mzErrorType))
  }

  function MinError(p: ErrorProps): real
    requires ErrorsDefined(p) && |p.matchedIons| > 0
  {
    SeqMin(Errors(p))
  }

  function MaxError(p: ErrorProps): real
    requires ErrorsDefined(p) && |p.matchedIons| > 0
  {
    SeqMax(Errors(p))
  }

  function ErrorRange(p: ErrorProps): real
    requires ErrorsDefined(p) && |p.matchedIons| > 0
  {
    MaxError(p) - MinError(p)
  }

  /** Every plotted error lies between the bottom and the top of the y axis' data range. */
  lemma ErrorsWithinRange(p: ErrorProps, i: nat)
    requires ErrorsDefined(p) && |p.matchedIons| > 0 && i < |p.matchedIons|
    ensures MinError(p) <= Errors(p)[i] <= MaxError(p)
    ensures ErrorRange(p) >= 0.0
  {
  }

  function MzRange(p: ErrorProps): real
  {
    p.maxMz - p.minMz
  }

  /** `_axesYHeight`: the error axis rises from its baseline. */
  function YHeight(l: Layout): real
  {
    l.yStart - l.yEnd
  }

  /** The source's arithmetic yields finite numbers. */
  predicate Ready(p: ErrorProps, l: Layout)
  {
    && l.xWidthPadded > 0.0 && YHeight(l) > 0.0
    && |p.matchedIons| > 0 && ErrorsDefined(p)
    && MzRange(p) != 0.0 && ErrorRange(p) != 0.0
  }

  /** `_mzToX`, against the `minMz`/`maxMz` properties. */
  function MzToX(p: ErrorProps, l: Layout, mz: real): real
    requires Ready(p, l)
  {
    Project(mz, p.minMz, MzRange(p), l.xStartPadded, l.xWidthPadded)
  }

  /**
   * The y axis of the error plot in pixels and data: the baseline row, the
   * axis height, the largest error (drawn at the top) and the error range.
   */
  datatype ErrorAxis = ErrorAxis(baseline: real, height: real, maxError: real, errorRange: real)

  predicate AxisReady(a: ErrorAxis)
  {
    a.height != 0.0 && a.errorRange != 0.0
  }

  /** The panel's y axis, from `_axesYStart`, `_axesYHeight`, `_maxError` and `_errorRange`. */
  function Axis(p: ErrorProps, l: Layout): (a: ErrorAxis)
    requires Ready(p, l)
    ensures AxisReady(a)
  {
    ErrorAxis(l.yStart, YHeight(l), MaxError(p), ErrorRange(p))
  }

  /** `_errorToY` as written. */
  function ErrorToY(a: ErrorAxis, error: real): real
    requires AxisReady(a)
  {
    a.baseline - (1.0 - (error + a.maxError) / a.errorRange) * a.height
  }

  /**
   * As written, `_errorToY` puts the error `-maxError` at the top of the
   * axis (one height above the baseline) and `errorRange - maxError` on the
   * baseline.
   */
  lemma ErrorToYEnds(a: ErrorAxis)
    requires AxisReady(a)
    ensures ErrorToY(a, -a.maxError) == a.baseline - a.height
    ensures ErrorToY(a, a.errorRange - a.maxError) == a.baseline
  {
    assert (a.errorRange - a.maxError + a.maxError) / a.errorRange == 1.0;
  }

  /** Where `_renderYtick(f)` draws the tick at fraction `f`. */
  function YTickY(a: ErrorAxis, f: real): real
    requires AxisReady(a)
  {
    ErrorToY(a, f * a.errorRange - a.maxError)
  }

  /** `_yTickFractionToErrorLabel` before formatting. */
  function YTickLabel(a: ErrorAxis, f: real): real
  {
    a.maxError - f * a.errorRange
  }

  /** The value the y axis shows at pixel row `y`, read off the ticks by linear interpolation. */
  function ErrorAtY(a: ErrorAxis, y: real): real
    requires AxisReady(a)
  {
    YTickLabel(a, 1.0 - (a.baseline - y) / a.height)
  }

  lemma FractionOfRange(f: real, r: real)
    requires r != 0.0
    ensures (f * r) / r == f
  {
  }

  /**
   * As written, a dot is drawn at the height whose axis label reads the
   * NEGATED error: `_errorToY` adds the error to `maxError` where the tick
   * labels count down from it.
   */
  lemma ErrorDotMisplaced(a: ErrorAxis, error: real)
    requires AxisReady(a)
    ensures ErrorAtY(a, ErrorToY(a, error)) == -error
    ensures error != 0.0 ==> ErrorAtY(a, ErrorToY(a, error)) != error
  {
    var g := (error + a.maxError) / a.errorRange;
    assert a.baseline - ErrorToY(a, error) == (1.0 - g) * a.height;
    FractionOfRange(1.0 - g, a.height);
    assert g * a.errorRange == error + a.maxError;
  }

  /**
   * The y ticks: the tick at fraction `f` sits `(1 - f)` of the axis height
   * above the baseline and shows `maxError - f * errorRange`; reading the axis
   * at a tick gives that tick's label.
   */
  lemma YTicks(a: ErrorAxis, f: real)
    requires AxisReady(a)
    ensures YTickY(a, f) == a.baseline - (1.0 - f) * a.height
    ensures ErrorAtY(a, YTickY(a, f)) == YTickLabel(a, f)
  {
    assert (f * a.errorRange - a.maxError) + a.maxError == f * a.errorRange;
    FractionOfRange(f, a.errorRange);
    ErrorDotMisplaced(a, f * a.errorRange - a.maxError);
  }

  /** The first tick shows the largest error at the top of the axis, the last the smallest at the baseline. */
  lemma YTickEnds(p: ErrorProps, l: Layout)
    requires Ready(p, l)
    ensures YTickY(Axis(p, l), 0.0) == l.yEnd && YTickLabel(Axis(p, l), 0.0) == MaxError(p)
    ensures YTickY(Axis(p, l), 1.0) == l.yStart && YTickLabel(Axis(p, l), 1.0) == MinError(p)
  {
    var a := Axis(p, l);
    YTicks(a, 0.0);
    YTicks(a, 1.0);
  }

  /** The dot height the axis labels call for: the row whose label reads `error`. */
  function ErrorDotY(a: ErrorAxis, error: real): (y: real)
    requires AxisReady(a)
    ensures ErrorAtY(a, y) == error
  {
    ErrorDotMisplaced(a, -error);
    ErrorToY(a, -error)
  }

  /** The zero line, drawn at `_errorToY(0)`, sits where the axis reads 0, and the dot of an exact match lies on it. */
  lemma ZeroLine(a: ErrorAxis)
    requires AxisReady(a)
    ensures ErrorAtY(a, ErrorToY(a, 0.0)) == 0.0
    ensures ErrorDotY(a, 0.0) == ErrorToY(a, 0.0)
  {
    ErrorDotMisplaced(a, 0.0);
  }

  /** Where the dot of a matched ion is drawn, with the corrected height. */
  function ErrorDot(p: ErrorProps, l: Layout, ion: MatchedFragmentPeak): (dot: (real, real))
    requires Ready(p, l)
    requires p.mzErrorType == Ppm || p.mzErrorType == Mmu ==> ion.peakMz != 0.0
    ensures dot.0 == MzToX(p, l, ion.peakMz)
    ensures ErrorAtY(Axis(p, l), dot.1) == TransformMzError(ion.peakMz, ion.mzError, p.mzErrorType)
  {
    (MzToX(p, l, ion.peakMz), ErrorDotY(Axis(p, l), TransformMzError(ion.peakMz, ion.mzError, p.mzErrorType)))
  }

  /** Where `_renderXtick(f)` draws the tick at fraction `f`. */
  function XTickX(p: ErrorProps, l: Layout, f: real): real
    requires Ready(p, l)
  {
    MzToX(p, l, p.minMz + f * MzRange(p))
  }

  /** The x ticks sit at equal fractions of the padded axis width. */
  lemma XTickPlacement(p: ErrorProps, l: Layout, f: real)
    requires Ready(p, l)
    ensures XTickX(p, l, f) == l.xStartPadded + f * l.xWidthPadded
  {
    var r := MzRange(p);
    ProjectFraction(f, p.minMz, r, l.xStartPadded, l.xWidthPadded);
    assert XTickX(p, l, f) == Project(p.minMz + f * r, p.minMz, r, l.xStartPadded, l.xWidthPadded);
  }

  class ErrorPanel {
    const props: ErrorProps
    const layout: Layout
    /** The y tick width the panel measures from its own labels' text. */
    const measuredYTickWidth: real
    var xZoom: real
    var xScroll: real
    var xTickLabels: seq<real>
    var storedYTickWidth: real
    ghost var events: seq<ZoomScrollDetail>

    /** A drawable panel with its x zoom at least 1. The y axis has no zoom or scroll at all. */
    predicate Valid()
      reads this`xZoom
    {
      Ready(props, layout) && xZoom >= 1.0
    }

    predicate Clipped()
      reads this`xZoom, this`xScroll
    {
      InClip(xScroll, xZoom, layout.xWidthPadded)
    }

    function Detail(): ZoomScrollDetail
      reads this`xZoom, this`xScroll
    {
      ErrorDetail(xZoom, xScroll)
    }

    /** The `yTickWidth` getter: the width set from outside, unless that is 0. */
    function YTickWidth(): (w: real)
      reads this`storedYTickWidth
      ensures storedYTickWidth != 0.0 ==> w == storedYTickWidth
      ensures storedYTickWidth == 0.0 ==> w == measuredYTickWidth
    {
      if storedYTickWidth == 0.0 then measuredYTickWidth else storedYTickWidth
    }

    /** The `yTickWidth` setter. */
    method SetYTickWidth(w: real)
      modifies this`storedYTickWidth
      ensures storedYTickWidth == w
      ensures w != 0.0 ==> YTickWidth() == w
    {
      storedYTickWidth := w;
    }

    /** `_xTickFractionToMzLabel` before formatting. */
    function XTickLabel(f: real): real
      reads this`xZoom, this`xScroll
      requires Valid()
    {
      VisibleValue(f, props.minMz, MzRange(props), xScroll, layout.xWidthPadded, xZoom)
    }

    predicate LabelsCurrent()
      reads this
      requires Valid()
    {
      && |xTickLabels| == |props.xTickFractions|
      && forall i :: 0 <= i < |xTickLabels| ==> xTickLabels[i] == XTickLabel(props.xTickFractions[i])
    }

    /**
     * The x tick labels agree with the drawing, whose group transform is
     * `translate(xScroll, 0) scale(xZoom, 1)` about `xStartPadded`.
     */
    lemma XTickLabelConsistent(f: real)
      requires Valid()
      ensures Transformed(MzToX(props, layout, XTickLabel(f)), layout.xStartPadded, xScroll, xZoom)
           == XTickX(props, layout, f)
    {
      VisibleValueConsistent(f, props.minMz, MzRange(props), xScroll, layout.xWidthPadded, xZoom, layout.xStartPadded);
      XTickPlacement(props, layout, f);
    }

    /** Unzoomed and unscrolled, the x label at fraction `f` shows `minMz + f * mzRange`. */
    lemma TickLabelsAtRest(f: real)
      requires Valid() && xZoom == 1.0 && xScroll == 0.0
      ensures XTickLabel(f) == props.minMz + f * MzRange(props)
    {
      VisibleValueAtRest(f, props.minMz, MzRange(props), layout.xWidthPadded);
    }

    constructor(props: ErrorProps, layout: Layout, measuredYTickWidth: real)
      requires Ready(props, layout)
      ensures this.props == props && this.layout == layout && this.measuredYTickWidth == measuredYTickWidth
      ensures Valid() && Clipped()
      ensures xZoom == 1.0 && xScroll == 0.0 && xTickLabels == [] && storedYTickWidth == 0.0 && events == []
    {
      this.props := props;
      this.layout := layout;
      this.measuredYTickWidth := measuredYTickWidth;
      xZoom := 1.0;
      xScroll := 0.0;
      xTickLabels := [];
      storedYTickWidth := 0.0;
      events := [];
    }

    /**
     * `_updateZoomAndScroll`: re-labels the x ticks and, unless suppressed,
     * dispatches one `zoom-scroll` event carrying the x zoom and scroll only.
     */
    method UpdateZoomAndScroll(suppressEvent: bool) returns (emitted: seq<ZoomScrollDetail>)
      requires Valid()
      modifies this`xTickLabels, this`events
      ensures LabelsCurrent()
      ensures emitted == (if suppressEvent then [] else [Detail()])
      ensures events == old(events) + emitted
    {
      var xs: seq<real> := [];
      for i := 0 to |props.xTickFractions|
        invariant |xs| == i
        invariant forall k :: 0 <= k < i ==> xs[k] == XTickLabel(props.xTickFractions[k])
      {
        xs := xs + [XTickLabel(props.xTickFractions[i])];
      }
      xTickLabels := xs;
      if suppressEvent {
        emitted := [];
      } else {
        emitted := [Detail()];
        events := events + emitted;
      }
    }

    /** The `updated` lifecycle hook. */
    method Updated() returns (emitted: seq<ZoomScrollDetail>)
      requires Valid()
      modifies this`xTickLabels, this`events
      ensures LabelsCurrent()
      ensures emitted == [Detail()] && events == old(events) + emitted
    {
      emitted := UpdateZoomAndScroll(false);
    }

    /** `updateZoomScroll`: stores the x zoom and scroll as given and dispatches nothing. */
    method UpdateZoomScroll(newXZoom: real, newXScroll: real)
      requires Ready(props, layout) && newXZoom >= 1.0
      modifies this`xZoom, this`xScroll, this`xTickLabels, this`events
      ensures Valid() && LabelsCurrent()
      ensures xZoom == newXZoom && xScroll == newXScroll
      ensures events == old(events)
    {
      xZoom := newXZoom;
      xScroll := newXScroll;
      var none := UpdateZoomAndScroll(true);
    }

    /** The public `xZoom` setter: stores the value and dispatches an event. */
    method SetXZoom(v: real) returns (emitted: seq<ZoomScrollDetail>)
      requires Valid() && v >= 1.0
      modifies this`xZoom, this`xTickLabels, this`events
      ensures Valid() && LabelsCurrent() && xZoom == v
      ensures emitted == [Detail()] && events == old(events) + emitted
    {
      xZoom := v;
      emitted := UpdateZoomAndScroll(false);
    }

    /** The public `xScroll` setter: stores the value unclipped and dispatches an event. */
    method SetXScroll(v: real) returns (emitted: seq<ZoomScrollDetail>)
      requires Valid()
      modifies this`xScroll, this`xTickLabels, this`events
      ensures Valid() && LabelsCurrent() && xScroll == v
      ensures emitted == [Detail()] && events == old(events) + emitted
    {
      xScroll := v;
      emitted := UpdateZoomAndScroll(false);
    }

    /** `_handleXZoom`, as in the peaks panel. */
    method HandleXZoom(delta: real, center: real) returns (emitted: seq<ZoomScrollDetail>)
      requires Valid()
      modifies this`xZoom, this`xScroll, this`xTickLabels, this`events
      ensures Valid() && LabelsCurrent() && Clipped()
      ensures xZoom == ZoomedBy(old(xZoom), ZoomChange(delta, props.zoomSensitivity))
      ensures xScroll == ClipOffset(Anchored(old(xScroll), center, ZoomChange(delta, props.zoomSensitivity)),
                                    xZoom, layout.xWidthPadded)
      ensures old(xZoom) * ZoomChange(delta, props.zoomSensitivity) >= 1.0
              && InClip(Anchored(old(xScroll), center, ZoomChange(delta, props.zoomSensitivity)), xZoom, layout.xWidthPadded)
              ==> xScroll + xZoom * ContentAt(center, old(xScroll), old(xZoom)) == center
      ensures emitted == [Detail()] && events == old(events) + emitted
    {
      var zoomChange := ZoomChange(delta, props.zoomSensitivity);
      var oldZoom, oldScroll := xZoom, xScroll;
      xZoom := ZoomedBy(xZoom, zoomChange);
      xScroll := ClipOffset(Anchored(xScroll, center, zoomChange), xZoom, layout.xWidthPadded);
      if oldZoom * zoomChange >= 1.0 && InClip(Anchored(oldScroll, center, zoomChange), xZoom, layout.xWidthPadded) {
        ZoomStepKeepsAnchor(oldZoom, oldScroll, center, zoomChange, xZoom, xScroll);
      }
      emitted := UpdateZoomAndScroll(false);
    }

    /** `_handleXScroll`, as in the peaks panel. */
    method HandleXScroll(delta: real) returns (emitted: seq<ZoomScrollDetail>)
      requires Valid()
      modifies this`xScroll, this`xTickLabels, this`events
      ensures Valid() && LabelsCurrent() && Clipped()
      ensures xScroll == ClipOffset(old(xScroll) + delta * props.scrollSensitivity, xZoom, layout.xWidthPadded)
      ensures emitted == [Detail()] && events == old(events) + emitted
    {
      xScroll := ClipOffset(xScroll + delta * props.scrollSensitivity, xZoom, layout.xWidthPadded);
      emitted := UpdateZoomAndScroll(false);
    }

    /**
     * The view a wheel gesture leaves behind: with ctrl held, x zoomed about
     * the cursor; otherwise x scrolled when zoomed in, else nothing changes.
     */
    function WheelView(ctrlKey: bool, deltaX: real, offsetX: real): (v: ZoomScrollDetail)
      reads this`xZoom, this`xScroll
      requires Valid()
      ensures v.ErrorDetail? && ZoomsAtLeastOne(v)
      ensures Clipped() ==> InClip(v.xScroll, v.xZoom, layout.xWidthPadded)
      ensures ctrlKey || xZoom > 1.0 ==> InClip(v.xScroll, v.xZoom, layout.xWidthPadded)
      ensures !ctrlKey ==> v.xZoom == xZoom
      ensures !ctrlKey && xZoom <= 1.0 ==> v == Detail()
    {
      if ctrlKey then
        var change := ZoomChange(deltaX, props.zoomSensitivity);
        var newZoom := ZoomedBy(xZoom, change);
        ErrorDetail(newZoom, ClipOffset(Anchored(xScroll, offsetX - layout.xStartPadded, change), newZoom, layout.xWidthPadded))
      else if xZoom > 1.0 then
        ErrorDetail(xZoom, ClipOffset(xScroll + deltaX * props.scrollSensitivity, xZoom, layout.xWidthPadded))
      else
        Detail()
    }

    /** The events that gesture dispatches: one carrying the new view, or none when nothing moved. */
    function WheelEvents(ctrlKey: bool, deltaX: real, offsetX: real): (es: seq<ZoomScrollDetail>)
      reads this`xZoom, this`xScroll
      requires Valid()
      ensures |es| == (if ctrlKey || xZoom > 1.0 then 1 else 0)
      ensures forall d :: d in es ==> d == WheelView(ctrlKey, deltaX, offsetX)
    {
      if ctrlKey || xZoom > 1.0 then [WheelView(ctrlKey, deltaX, offsetX)] else []
    }

    /**
     * `_handleWheel`: with ctrl held, zooms x about the cursor using `deltaX`;
     * otherwise scrolls x when zoomed in. `deltaY` is never used.
     */
    method HandleWheel(ctrlKey: bool, deltaX: real, deltaY: real, offsetX: real, offsetY: real)
      returns (emitted: seq<ZoomScrollDetail>)
      requires Valid()
      modifies this`xZoom, this`xScroll, this`xTickLabels, this`events
      ensures Valid()
      ensures old(Clipped()) ==> Clipped()
      ensures events == old(events) + emitted
      ensures |emitted| > 0 ==> LabelsCurrent() && emitted == [Detail()]
      ensures forall d :: d in emitted ==> d.ErrorDetail? && ZoomsAtLeastOne(d)
      ensures Detail() == old(WheelView(ctrlKey, deltaX, offsetX))
      ensures emitted == old(WheelEvents(ctrlKey, deltaX, offsetX))
      ensures ctrlKey ==>
        && xZoom == ZoomedBy(old(xZoom), ZoomChange(deltaX, props.zoomSensitivity))
        && xScroll == ClipOffset(Anchored(old(xScroll), offsetX - layout.xStartPadded,
                                          ZoomChange(deltaX, props.zoomSensitivity)), xZoom, layout.xWidthPadded)
        && Clipped() && |emitted| == 1
      ensures !ctrlKey && old(xZoom) > 1.0 ==>
        && xZoom == old(xZoom)
        && xScroll == ClipOffset(old(xScroll) + deltaX * props.scrollSensitivity, xZoom, layout.xWidthPadded)
        && |emitted| == 1
      ensures !ctrlKey && old(xZoom) <= 1.0 ==> emitted == [] && unchanged(this)
    {
      if ctrlKey {
        emitted := HandleXZoom(deltaX, offsetX - layout.xStartPadded);
      } else if xZoom > 1.0 {
        emitted := HandleXScroll(deltaX);
      } else {
        emitted := [];
      }
    }
  }
}

=== FILE: spectrum_peaks.dfy ===
/**
 * `BiowcSpectrumPeaks`: one stick-plot panel of a spectrum (drawn upwards, or
 * downwards when it is the mirror panel). It keeps a zoom and a scroll offset
 * per axis, changes them on wheel events, re-labels its ticks after every
 * change and announces user-driven changes with a `zoom-scroll` event.
 */
module SpectrumPeaks {
  import opened Util
  import opened Viewport
  import opened FragmentPeak
  import opened PeakIndex
  import opened Numerals

  /** The panel's properties, as set by the page or the enclosing chart. */
  datatype PeaksProps = PeaksProps(
    mirror: bool,
    mzs: seq<real>,
    intensities: seq<real>,
    pepSeq: string,
    indexedMatchedIons: map<nat, MatchedFragmentPeak>,
    hidePeakIndices: seq<nat>,
    minMz: Option<real>,
    maxMz: Option<real>,
    yAxisPaddingFrac: real,
    zoomSensitivity: real,
    scrollSensitivity: real,
    xTickFractions: seq<real>,
    yTickFractions: seq<real>)

  /** The m/z bounds are given, or there are peaks to take them from. */
  predicate MzResolvable(p: PeaksProps)
  {
    (p.minMz.Some? || |p.mzs| > 0) && (p.maxMz.Some? || |p.mzs| > 0)
  }

  /** `_minMz`: the `minMz` property when set, else the smallest peak m/z. */
  function MinMz(p: PeaksProps): (m: real)
    requires MzResolvable(p)
    ensures p.minMz.Some? ==> m == p.minMz.value
    ensures p.minMz.None? ==> m in p.mzs && forall k :: 0 <= k < |p.mzs| ==> m <= p.mzs[k]
  {
    match p.minMz
    case Some(v) => v
    case None => SeqMin(p.mzs)
  }

  /** `_maxMz`: the `maxMz` property when set, else the largest peak m/z. */
  function MaxMz(p: PeaksProps): (m: real)
    requires MzResolvable(p)
    ensures p.maxMz.Some? ==> m == p.maxMz.value
    ensures p.maxMz.None? ==> m in p.mzs && forall k :: 0 <= k < |p.mzs| ==> p.mzs[k] <= m
  {
    match p.maxMz
    case Some(v) => v
    case None => SeqMax(p.mzs)
  }

  function MzRange(p: PeaksProps): real
    requires MzResolvable(p)
  {
    MaxMz(p) - MinMz(p)
  }

  /** `_intensityRange`: the largest intensity plus the axis padding fraction. */
  function IntensityRange(p: PeaksProps): real
    requires |p.intensities| > 0
  {
    SeqMax(p.intensities) * (1.0 + p.yAxisPaddingFrac)
  }

  /** With non-negative padding, the intensity axis covers every non-negative intensity. */
  lemma IntensityRangeCovers(p: PeaksProps, k: nat)
    requires |p.intensities| > 0 && k < |p.intensities|
    requires p.yAxisPaddingFrac >= 0.0 && p.intensities[k] >= 0.0
    ensures p.intensities[k] <= IntensityRange(p)
  {
    var m := SeqMax(p.intensities);
    assert p.intensities[k] <= m;
    assert m * p.yAxisPaddingFrac >= 0.0;
  }

  /** `_axesYHeight`: the mirror panel's y axis runs downwards from its baseline. */
  function YHeight(p: PeaksProps, l: Layout): real
  {
    if p.mirror then l.yEnd - l.yStart else l.yStart - l.yEnd
  }

  /**
   * What the source's arithmetic needs to yield finite numbers: a plot area
   * of positive size, resolvable m/z bounds, at least one intensity, and
   * nonzero data ranges.
   */
  predicate Ready(p: PeaksProps, l: Layout)
  {
    && l.xWidthPadded > 0.0 && YHeight(p, l) > 0.0
    && |p.intensities| > 0 && MzResolvable(p)
    && MzRange(p) != 0.0 && IntensityRange(p) != 0.0
  }

  /** `_mzToX` */
  function MzToX(p: PeaksProps, l: Layout, mz: real): real
    requires Ready(p, l)
  {
    Project(mz, MinMz(p), MzRange(p), l.xStartPadded, l.xWidthPadded)
  }

  /** A projection sends the ends of the data range to the ends of the pixel range. */
  lemma ProjectEnds(dMin: real, dRange: real, pStart: real, pWidth: real)
    requires dRange != 0.0
    ensures Project(dMin, dMin, dRange, pStart, pWidth) == pStart
    ensures Project(dMin + dRange, dMin, dRange, pStart, pWidth) == pStart + pWidth
  {
    assert (dMin + dRange - dMin) / dRange == 1.0;
  }

  /**
   * The m/z axis spans the padded plot width: `_minMz` at its left edge,
   * `_maxMz` at its right edge, and every x maps back to the m/z drawn there.
   */
  lemma MzAxisEnds(p: PeaksProps, l: Layout, mz: real)
    requires Ready(p, l)
    ensures MzToX(p, l, MinMz(p)) == l.xStartPadded
    ensures MzToX(p, l, MaxMz(p)) == l.xStartPadded + l.xWidthPadded
    ensures Unproject(MzToX(p, l, mz), MinMz(p), MzRange(p), l.xStartPadded, l.xWidthPadded) == mz
  {
    ProjectEnds(MinMz(p), MzRange(p), l.xStartPadded, l.xWidthPadded);
    ProjectRoundTrip(mz, 0.0, MinMz(p), MzRange(p), l.xStartPadded, l.xWidthPadded);
  }

  /**
   * The row of an intensity on an axis that ends at `yEnd`, is `h` high and
   * spans the intensities up to `r`.
   */
  function IntensityRow(mirror: bool, yEnd: real, h: real, r: real, intensity: real): real
    requires r != 0.0
  {
    if mirror then yEnd - (1.0 - intensity / r) * h else yEnd + (1.0 - intensity / r) * h
  }

  /** `_intensityToY` */
  function IntensityToY(p: PeaksProps, l: Layout, intensity: real): real
    requires Ready(p, l)
  {
    IntensityRow(p.mirror, l.yEnd, YHeight(p, l), IntensityRange(p), intensity)
  }

  /** The offset of a row from the baseline `yStart` is proportional to its intensity. */
  lemma RowOffset(mirror: bool, yStart: real, yEnd: real, h: real, r: real, intensity: real)
    requires r != 0.0
    requires h == (if mirror then yEnd - yStart else yStart - yEnd)
    ensures IntensityRow(mirror, yEnd, h, r, intensity)
         == yStart + (if mirror then 1.0 else -1.0) * (intensity / r) * h
  {
  }

  /** Intensity 0 sits on the baseline and the full range `r` at the far end. */
  lemma RowEnds(mirror: bool, yStart: real, yEnd: real, h: real, r: real)
    requires r != 0.0
    requires h == (if mirror then yEnd - yStart else yStart - yEnd)
    ensures IntensityRow(mirror, yEnd, h, r, 0.0) == yStart
    ensures IntensityRow(mirror, yEnd, h, r, r) == yEnd
  {
    assert r / r == 1.0;
  }

  /**
   * The intensity axis rises from the baseline: the offset from the
   * baseline is proportional to the intensity (upwards, or downwards in the
   * mirror panel).
   */
  lemma IntensityAxis(p: PeaksProps, l: Layout, intensity: real)
    requires Ready(p, l)
    ensures IntensityToY(p, l, intensity)
         == l.yStart + (if p.mirror then 1.0 else -1.0) * (intensity / IntensityRange(p)) * YHeight(p, l)
  {
    RowOffset(p.mirror, l.yStart, l.yEnd, YHeight(p, l), IntensityRange(p), intensity);
  }

  /** Intensity 0 is drawn on the baseline `yStart`, the full intensity range at `yEnd`. */
  lemma IntensityAxisEnds(p: PeaksProps, l: Layout)
    requires Ready(p, l)
    ensures IntensityToY(p, l, 0.0) == l.yStart
    ensures IntensityToY(p, l, IntensityRange(p)) == l.yEnd
  {
    RowEnds(p.mirror, l.yStart, l.yEnd, YHeight(p, l), IntensityRange(p));
  }

  /** Where `_renderXtick(f)` draws the tick at fraction `f`. */
  function XTickX(p: PeaksProps, l: Layout, f: real): real
    requires Ready(p, l)
  {
    MzToX(p, l, MinMz(p) + f * MzRange(p))
  }

  /** Where `_renderYtick(f)` draws the tick at fraction `f`. */
  function YTickY(p: PeaksProps, l: Layout, f: real): real
    requires Ready(p, l)
  {
    IntensityToY(p, l, IntensityRange(p) - f * IntensityRange(p))
  }

  /** The x ticks sit at equal fractions of the padded axis width. */
  lemma XTickPlacement(p: PeaksProps, l: Layout, f: real)
    requires Ready(p, l)
    ensures XTickX(p, l, f) == l.xStartPadded + f * l.xWidthPadded
  {
    ProjectFraction(f, MinMz(p), MzRange(p), l.xStartPadded, l.xWidthPadded);
  }

  lemma ComplementFraction(r: real, f: real)
    requires r != 0.0
    ensures (r - f * r) / r == 1.0 - f
  {
    var g := 1.0 - f;
    assert r - f * r == g * r;
    assert (g * r) / r == g;
    assert (r - f * r) / r == (g * r) / r;
  }

  /** The row of the tick at fraction `f`: `(1-f)` of the height from the baseline. */
  lemma RowTick(mirror: bool, yStart: real, yEnd: real, h: real, r: real, f: real)
    requires r != 0.0
    requires h == (if mirror then yEnd - yStart else yStart - yEnd)
    ensures IntensityRow(mirror, yEnd, h, r, r - f * r)
         == yStart + (if mirror then 1.0 else -1.0) * (1.0 - f) * h
  {
    RowOffset(mirror, yStart, yEnd, h, r, r - f * r);
    ComplementFraction(r, f);
  }

  /** The y ticks sit at equal fractions of the axis height, the first at its far end. */
  lemma YTickPlacement(p: PeaksProps, l: Layout, f: real)
    requires Ready(p, l)
    ensures YTickY(p, l, f) == l.yStart + (if p.mirror then 1.0 else -1.0) * (1.0 - f) * YHeight(p, l)
  {
    RowTick(p.mirror, l.yStart, l.yEnd, YHeight(p, l), IntensityRange(p), f);
  }

  /**
   * `_yTickFractionToIntensityLabel` before formatting, over plain numbers:
   * the intensity shown at fraction `f` when the axis of height `h` and
   * range `r` is scrolled by `scroll` and zoomed by `zoom`.
   */
  function YLabelValue(mirror: bool, scroll: real, h: real, r: real, zoom: real, f: real): real
    requires h != 0.0 && zoom != 0.0
  {
    var scaledMin := if mirror then (scroll / (h * zoom)) * r else (-scroll / (h * zoom)) * r;
    var scaledMax := scaledMin + r / zoom;
    scaledMax - f * (scaledMax - scaledMin)
  }

  /** Unzoomed and unscrolled, the label at fraction `f` shows `(1-f)` of the range. */
  lemma YLabelAtRest(mirror: bool, h: real, r: real, f: real)
    requires h != 0.0
    ensures YLabelValue(mirror, 0.0, h, r, 1.0, f) == (1.0 - f) * r
  {
    assert 0.0 / (h * 1.0) == 0.0;
  }

  /** The algebra behind the y tick labels, with `sign` +1 for the mirror panel and -1 otherwise. */
  lemma YLabelAlgebra(sign: real, scroll: real, h: real, r: real, zoom: real, f: real, shown: real)
    requires sign == 1.0 || sign == -1.0
    requires h != 0.0 && r != 0.0 && zoom != 0.0
    requires shown == sign * (scroll / (h * zoom)) * r + r / zoom - f * (r / zoom)
    ensures -scroll + zoom * (sign * (shown / r) * h) == sign * (1.0 - f) * h
  {
    var u := scroll / (h * zoom);
    var v := (1.0 - f) / zoom;
    assert shown == r * (sign * u + v);
    assert shown / r == sign * u + v;
    assert zoom * u * h == scroll;
    assert zoom * v == 1.0 - f;
    assert sign * sign == 1.0;
    calc {
      -scroll + zoom * (sign * (sign * u + v) * h);
      -scroll + (sign * sign) * (zoom * u * h) + sign * (zoom * v) * h;
      sign * (1.0 - f) * h;
    }
  }

  /**
   * The y label argument over plain numbers: the label value at fraction `f`
   * is drawn, under translation by `-scroll` and scaling by `zoom` about the
   * baseline `yStart`, on the row of the tick at fraction `f`.
   */
  lemma YLabelDrawnAtTick(mirror: bool, yStart: real, yEnd: real, h: real, r: real,
                          scroll: real, zoom: real, f: real)
    requires h != 0.0 && r != 0.0 && zoom != 0.0
    requires h == (if mirror then yEnd - yStart else yStart - yEnd)
    ensures Transformed(IntensityRow(mirror, yEnd, h, r, YLabelValue(mirror, scroll, h, r, zoom, f)), yStart, -scroll, zoom)
         == IntensityRow(mirror, yEnd, h, r, r - f * r)
  {
    var sign := if mirror then 1.0 else -1.0;
    var shown := YLabelValue(mirror, scroll, h, r, zoom, f);
    assert shown == sign * (scroll / (h * zoom)) * r + r / zoom - f * (r / zoom) by {
      assert -scroll / (h * zoom) == -(scroll / (h * zoom));
    }
    YLabelAlgebra(sign, scroll, h, r, zoom, f, shown);
    RowOffset(mirror, yStart, yEnd, h, r, shown);
    RowTick(mirror, yStart, yEnd, h, r, f);
    var t := sign * (shown / r) * h;
    assert Transformed(yStart + t, yStart, -scroll, zoom) == yStart + (-scroll + zoom * t);
  }

  /** A rendered peak: nothing when hidden, else a stem from the baseline, possibly annotated. */
  datatype Annotation = Annotation(text: string, x: real, y: real, fill: string)
  datatype PeakGlyph =
    | Hidden
    | Stem(x: real, baseY: real, tipY: real, stroke: string, annotation: Option<Annotation>)

  /**
   * The residue number shown for a matched ion: y ions are counted from the
   * C-terminus, so a y ion covering the last residues gets `|pepSeq| -
   * aaPosition + 1`; every other ion type shows `aaPosition`.
   */
  function AnnotationNumber(ionType: string, aaPosition: int, pepSeq: string): (n: int)
    ensures ionType == "y" ==> n + aaPosition == |pepSeq| + 1
    ensures ionType != "y" ==> n == aaPosition
  {
    if ionType == "y" then |pepSeq| - aaPosition + 1 else aaPosition
  }

  /**
   * `${ionType}${aaPosition}${'+'.repeat(charge)}`; `repeat` throws on a
   * negative count, which is the `None` result.
   */
  function AnnotationText(ion: MatchedFragmentPeak, pepSeq: string): (t: Option<string>)
    ensures t.None? <==> ion.charge < 0
  {
    if ion.charge < 0 then None
    else Some(ion.ionType + IntToString(AnnotationNumber(ion.ionType, ion.aaPosition, pepSeq)) + Repeat('+', ion.charge))
  }

  /**
   * An annotation can be read back: it starts with the ion type, ends in one
   * `+` per charge, and the text in between is the residue number.
   */
  lemma AnnotationTextReadsBack(ion: MatchedFragmentPeak, pepSeq: string)
    requires ion.charge >= 0
    ensures var t := AnnotationText(ion, pepSeq).value;
      && |ion.ionType| + ion.charge <= |t|
      && t[..|ion.ionType|] == ion.ionType
      && TrailingCount(t, '+') == ion.charge
      && IsIntLiteral(t[|ion.ionType|..|t| - ion.charge])
      && ParseInt(t[|ion.ionType|..|t| - ion.charge]) == AnnotationNumber(ion.ionType, ion.aaPosition, pepSeq)
  {
    var n := AnnotationNumber(ion.ionType, ion.aaPosition, pepSeq);
    var head := ion.ionType + IntToString(n);
    var t := AnnotationText(ion, pepSeq).value;
    assert t == head + Repeat('+', ion.charge);
    TrailingCountOfRepeat(head, '+', ion.charge);
    assert t[|ion.ionType|..|t| - ion.charge] == IntToString(n);
    IntToStringRoundTrip(n);
  }

  /**
   * `_renderPeak` for peak `i`: a hidden index renders nothing; otherwise a
   * stem from the baseline to the peak's intensity, grey unless the peak is
   * matched, in which case it takes its ion type's colour and carries an
   * annotation at the stem's tip. `None` is the exception a negative charge
   * raises.
   */
  function RenderPeak(p: PeaksProps, l: Layout, i: nat): (g: Option<PeakGlyph>)
    requires Ready(p, l) && i < |p.mzs| && i < |p.intensities|
    ensures g == Some(Hidden) <==> i in p.hidePeakIndices
    ensures g.None? <==>
      i !in p.hidePeakIndices && i in p.indexedMatchedIons && p.indexedMatchedIons[i].charge < 0
    ensures g.Some? && g.value.Stem? ==>
      && g.value.x == MzToX(p, l, p.mzs[i])
      && g.value.baseY == l.yStart
      && g.value.tipY == IntensityToY(p, l, p.intensities[i])
      && (g.value.annotation.Some? <==> i in p.indexedMatchedIons)
      && g.value.stroke == (if i in p.indexedMatchedIons then PeakStroke(p.indexedMatchedIons[i].ionType) else "grey")
    ensures g.Some? && g.value.Stem? && g.value.annotation.Some? ==>
      && Some(g.value.annotation.value.text) == AnnotationText(p.indexedMatchedIons[i], p.pepSeq)
      && g.value.annotation.value.x == g.value.x
      && g.value.annotation.value.y == g.value.tipY
      && g.value.annotation.value.fill == g.value.stroke
  {
    if i in p.hidePeakIndices then Some(Hidden)
    else
      var x := MzToX(p, l, p.mzs[i]);
      var y := IntensityToY(p, l, p.intensities[i]);
      if i in p.indexedMatchedIons then
        var ion := p.indexedMatchedIons[i];
        var stroke := PeakStroke(ion.ionType);
        match AnnotationText(ion, p.pepSeq)
        case None => None
        case Some(text) => Some(Stem(x, l.yStart, y, stroke, Some(Annotation(text, x, y, stroke))))
      else Some(Stem(x, l.yStart, y, "grey", None))
  }

  class PeaksPanel {
    const props: PeaksProps
    const layout: Layout
    var xZoom: real
    var xScroll: real
    var yZoom: real
    var yScroll: real
    /** The numeric values shown by the x and y tick labels, one per tick fraction. */
    var xTickLabels: seq<real>
    var yTickLabels: seq<real>
    /** Set by the enclosing chart; nothing in the panel reads it. */
    var yTickWidth: real
    /** The details of the `zoom-scroll` events dispatched so far. */
    ghost var events: seq<ZoomScrollDetail>

    /** A drawable panel: finite geometry and both zooms at least 1. */
    predicate Valid()
      reads this`xZoom, this`yZoom
    {
      Ready(props, layout) && xZoom >= 1.0 && yZoom >= 1.0
    }

    /** The y scroll interval of this panel: below the baseline, or above it for the mirror. */
    predicate YInClip(offset: real, zoom: real)
    {
      if props.mirror then InMirrorClip(offset, zoom, YHeight(props, layout))
      else InClip(offset, zoom, YHeight(props, layout))
    }

    /** `_clipYOffset` */
    function ClipY(offset: real, zoom: real): (r: real)
      requires Ready(props, layout)
      ensures zoom >= 1.0 ==> YInClip(r, zoom)
      ensures YInClip(offset, zoom) ==> r == offset
      ensures zoom == 1.0 ==> r == 0.0
    {
      if props.mirror then ClipMirrorOffset(offset, zoom, YHeight(props, layout))
      else ClipOffset(offset, zoom, YHeight(props, layout))
    }

    /** Both scroll offsets lie in their clip intervals. */
    predicate Clipped()
      reads this`xZoom, this`xScroll, this`yZoom, this`yScroll
    {
      InClip(xScroll, xZoom, layout.xWidthPadded) && YInClip(yScroll, yZoom)
    }

    function Detail(): ZoomScrollDetail
      reads this`xZoom, this`xScroll, this`yZoom, this`yScroll
    {
      PeaksDetail(xZoom, xScroll, yZoom, yScroll)
    }

    /** `_xTickFractionToMzLabel` before formatting. */
    function XTickLabel(f: real): real
      reads this`xZoom, this`xScroll, this`yZoom
      requires Valid()
    {
      VisibleValue(f, MinMz(props), MzRange(props), xScroll, layout.xWidthPadded, xZoom)
    }

    /** `_yTickFractionToIntensityLabel` before formatting. */
    function YTickLabel(f: real): real
      reads this`xZoom, this`yZoom, this`yScroll
      requires Valid()
    {
      YLabelValue(props.mirror, yScroll, YHeight(props, layout), IntensityRange(props), yZoom, f)
    }

    /** Every tick label shows the value for the current zoom and scroll. */
    predicate LabelsCurrent()
      reads this
      requires Valid()
    {
      && |xTickLabels| == |props.xTickFractions|
      && (forall i :: 0 <= i < |xTickLabels| ==> xTickLabels[i] == XTickLabel(props.xTickFractions[i]))
      && |yTickLabels| == |props.yTickFractions|
      && (forall i :: 0 <= i < |yTickLabels| ==> yTickLabels[i] == YTickLabel(props.yTickFractions[i]))
    }

    /**
     * The x tick labels agree with the drawing: the m/z a label shows is the
     * one whose peak the group transform `translate(xScroll) scale(xZoom)`
     * about `xStartPadded` draws exactly under the tick.
     */
    lemma XTickLabelConsistent(f: real)
      requires Valid()
      ensures Transformed(MzToX(props, layout, XTickLabel(f)), layout.xStartPadded, xScroll, xZoom)
           == XTickX(props, layout, f)
    {
      VisibleValueConsistent(f, MinMz(props), MzRange(props), xScroll, layout.xWidthPadded, xZoom, layout.xStartPadded);
      XTickPlacement(props, layout, f);
    }

    /**
     * The y tick labels agree with the drawing: the intensity a label shows is
     * the one the group transform (translation by `-yScroll`, scaling by
     * `yZoom` about the baseline) draws exactly beside the tick, in the
     * upright and in the mirror panel.
     */
    lemma YTickLabelConsistent(f: real)
      requires Valid()
      ensures Transformed(IntensityToY(props, layout, YTickLabel(f)), layout.yStart, -yScroll, yZoom)
           == YTickY(props, layout, f)
    {
      YLabelDrawnAtTick(props.mirror, layout.yStart, layout.yEnd, YHeight(props, layout), IntensityRange(props),
                        yScroll, yZoom, f);
    }

    /**
     * Unzoomed and unscrolled, the x label at fraction `f` shows
     * `_minMz + f * mzRange` and the y label `(1-f)` of the intensity range.
     */
    lemma TickLabelsAtRest(f: real)
      requires Valid()
      requires xZoom == 1.0 && xScroll == 0.0 && yZoom == 1.0 && yScroll == 0.0
      ensures XTickLabel(f) == MinMz(props) + f * MzRange(props)
      ensures YTickLabel(f) == (1.0 - f) * IntensityRange(props)
    {
      VisibleValueAtRest(f, MinMz(props), MzRange(props), layout.xWidthPadded);
      YLabelAtRest(props.mirror, YHeight(props, layout), IntensityRange(props), f);
    }

    /** A new panel: unzoomed, unscrolled, nothing rendered or dispatched yet. */
    constructor(props: PeaksProps, layout: Layout)
      requires Ready(props, layout)
      ensures this.props == props && this.layout == layout
      ensures Valid() && Clipped()
      ensures xZoom == 1.0 && xScroll == 0.0 && yZoom == 1.0 && yScroll == 0.0
      ensures xTickLabels == [] && yTickLabels == [] && yTickWidth == 0.0 && events == []
    {
      this.props := props;
      this.layout := layout;
      xZoom := 1.0;
      xScroll := 0.0;
      yZoom := 1.0;
      yScroll := 0.0;
      xTickLabels := [];
      yTickLabels := [];
      yTickWidth := 0.0;
      events := [];
    }

    /** The x tick labels for the current view, one per tick fraction. */
    method ComputeXTickLabels() returns (xs: seq<real>)
      requires Valid()
      ensures |xs| == |props.xTickFractions|
      ensures forall k :: 0 <= k < |xs| ==> xs[k] == XTickLabel(props.xTickFractions[k])
    {
      xs := [];
      for i := 0 to |props.xTickFractions|
        invariant |xs| == i
        invariant forall k :: 0 <= k < i ==> xs[k] == XTickLabel(props.xTickFractions[k])
      {
        xs := xs + [XTickLabel(props.xTickFractions[i])];
      }
    }

    /** The y tick labels for the current view, one per tick fraction. */
    method ComputeYTickLabels() returns (ys: seq<real>)
      requires Valid()
      ensures |ys| == |props.yTickFractions|
      ensures forall k :: 0 <= k < |ys| ==> ys[k] == YTickLabel(props.yTickFractions[k])
    {
      ys := [];
      for i := 0 to |props.yTickFractions|
        invariant |ys| == i
        invariant forall k :: 0 <= k < i ==> ys[k] == YTickLabel(props.yTickFractions[k])
      {
        ys := ys + [YTickLabel(props.yTickFractions[i])];
      }
    }

    /**
     * `_updateZoomAndScroll`: re-labels every tick for the current state and,
     * unless suppressed, dispatches one `zoom-scroll` event carrying all four
     * values.
     */
    method UpdateZoomAndScroll(suppressEvent: bool) returns (emitted: seq<ZoomScrollDetail>)
      requires Valid()
      modifies this`xTickLabels, this`yTickLabels, this`events
      ensures LabelsCurrent()
      ensures emitted == (if suppressEvent then [] else [Detail()])
      ensures events == old(events) + emitted
    {
      xTickLabels := ComputeXTickLabels();
      yTickLabels := ComputeYTickLabels();
      if suppressEvent {
        emitted := [];
      } else {
        emitted := [Detail()];
        events := events + emitted;
      }
    }

    /** The `updated` lifecycle hook, run after every render: re-label and dispatch. */
    method Updated() returns (emitted: seq<ZoomScrollDetail>)
      requires Valid()
      modifies this`xTickLabels, this`yTickLabels, this`events
      ensures LabelsCurrent()
      ensures emitted == [Detail()] && events == old(events) + emitted
    {
      emitted := UpdateZoomAndScroll(false);
    }

    /**
     * `updateZoomScroll`: the silent setter the enclosing chart uses to keep
     * panels in step. It stores the four values as given, without clipping,
     * and dispatches nothing.
     */
    method UpdateZoomScroll(newXZoom: real, newXScroll: real, newYZoom: real, newYScroll: real)
      requires Ready(props, layout) && newXZoom >= 1.0 && newYZoom >= 1.0
      modifies this`xZoom, this`xScroll, this`yZoom, this`yScroll, this`xTickLabels, this`yTickLabels, this`events
      ensures Valid() && LabelsCurrent()
      ensures xZoom == newXZoom && xScroll == newXScroll && yZoom == newYZoom && yScroll == newYScroll
      ensures events == old(events)
    {
      xZoom := newXZoom;
      xScroll := newXScroll;
      yZoom := newYZoom;
      yScroll := newYScroll;
      var none := UpdateZoomAndScroll(true);
    }

    /** The public `xZoom` setter: stores the value and dispatches an event. */
    method SetXZoom(v: real) returns (emitted: seq<ZoomScrollDetail>)
      requires Valid() && v >= 1.0
      modifies this`xZoom, this`xTickLabels, this`yTickLabels, this`events
      ensures Valid() && LabelsCurrent() && xZoom == v
      ensures emitted == [Detail()] && events == old(events) + emitted
    {
      xZoom := v;
      emitted := UpdateZoomAndScroll(false);
    }

    /** The public `xScroll` setter: stores the value unclipped and dispatches an event. */
    method SetXScroll(v: real) returns (emitted: seq<ZoomScrollDetail>)
      requires Valid()
      modifies this`xScroll, this`xTickLabels, this`yTickLabels, this`events
      ensures Valid() && LabelsCurrent() && xScroll == v
      ensures emitted == [Detail()] && events == old(events) + emitted
    {
      xScroll := v;
      emitted := UpdateZoomAndScroll(false);
    }

    /** The public `yZoom` setter: stores the value and dispatches an event. */
    method SetYZoom(v: real) returns (emitted: seq<ZoomScrollDetail>)
      requires Valid() && v >= 1.0
      modifies this`yZoom, this`xTickLabels, this`yTickLabels, this`events
      ensures Valid() && LabelsCurrent() && yZoom == v
      ensures emitted == [Detail()] && events == old(events) + emitted
    {
      yZoom := v;
      emitted := UpdateZoomAndScroll(false);
    }

    /** The public `yScroll` setter: stores the value unclipped and dispatches an event. */
    method SetYScroll(v: real) returns (emitted: seq<ZoomScrollDetail>)
      requires Valid()
      modifies this`yScroll, this`xTickLabels, this`yTickLabels, this`events
      ensures Valid() && LabelsCurrent() && yScroll == v
      ensures emitted == [Detail()] && events == old(events) + emitted
    {
      yScroll := v;
      emitted := UpdateZoomAndScroll(false);
    }

    /**
     * `_handleXZoom`: scales the x zoom by `1 + delta * zoomSensitivity`
     * (never below 1), re-centres the scroll about `center` and clips it, then
     * dispatches one event. When neither the floor nor the clip intervenes,
     * the content under `center` stays under it.
     */
    method HandleXZoom(delta: real, center: real) returns (emitted: seq<ZoomScrollDetail>)
      requires Valid()
      modifies this`xZoom, this`xScroll, this`xTickLabels, this`yTickLabels, this`events
      ensures Valid() && LabelsCurrent()
      ensures xZoom == ZoomedBy(old(xZoom), ZoomChange(delta, props.zoomSensitivity))
      ensures xScroll == ClipOffset(Anchored(old(xScroll), center, ZoomChange(delta, props.zoomSensitivity)),
                                    xZoom, layout.xWidthPadded)
      ensures InClip(xScroll, xZoom, layout.xWidthPadded)
      ensures old(xZoom) * ZoomChange(delta, props.zoomSensitivity) >= 1.0
              && InClip(Anchored(old(xScroll), center, ZoomChange(delta, props.zoomSensitivity)), xZoom, layout.xWidthPadded)
              ==> xScroll + xZoom * ContentAt(center, old(xScroll), old(xZoom)) == center
      ensures emitted == [Detail()] && events == old(events) + emitted
    {
      var zoomChange := ZoomChange(delta, props.zoomSensitivity);
      var oldZoom, oldScroll := xZoom, xScroll;
      xZoom := ZoomedBy(xZoom, zoomChange);
      xScroll := ClipOffset(Anchored(xScroll, center, zoomChange), xZoom, layout.xWidthPadded);
      if oldZoom * zoomChange >= 1.0 && InClip(Anchored(oldScroll, center, zoomChange), xZoom, layout.xWidthPadded) {
        ZoomStepKeepsAnchor(oldZoom, oldScroll, center, zoomChange, xZoom, xScroll);
      }
      emitted := UpdateZoomAndScroll(false);
    }

    /** `_handleXScroll`: moves the x scroll by `delta * scrollSensitivity`, clipped, and dispatches one event. */
    method HandleXScroll(delta: real) returns (emitted: seq<ZoomScrollDetail>)
      requires Valid()
      modifies this`xScroll, this`xTickLabels, this`yTickLabels, this`events
      ensures Valid() && LabelsCurrent()
      ensures xScroll == ClipOffset(old(xScroll) + delta * props.scrollSensitivity, xZoom, layout.xWidthPadded)
      ensures InClip(xScroll, xZoom, layout.xWidthPadded)
      ensures emitted == [Detail()] && events == old(events) + emitted
    {
      xScroll := ClipOffset(xScroll + delta * props.scrollSensitivity, xZoom, layout.xWidthPadded);
      emitted := UpdateZoomAndScroll(false);
    }

    /** `_handleYZoom`: as `_handleXZoom`, for the y axis and its (mirror-aware) clip. */
    method HandleYZoom(delta: real, center: real) returns (emitted: seq<ZoomScrollDetail>)
      requires Valid()
      modifies this`yZoom, this`yScroll, this`xTickLabels, this`yTickLabels, this`events
      ensures Valid() && LabelsCurrent()
      ensures yZoom == ZoomedBy(old(yZoom), ZoomChange(delta, props.zoomSensitivity))
      ensures yScroll == ClipY(Anchored(old(yScroll), center, ZoomChange(delta, props.zoomSensitivity)), yZoom)
      ensures YInClip(yScroll, yZoom)
      ensures old(yZoom) * ZoomChange(delta, props.zoomSensitivity) >= 1.0
              && YInClip(Anchored(old(yScroll), center, ZoomChange(delta, props.zoomSensitivity)), yZoom)
              ==> yScroll + yZoom * ContentAt(center, old(yScroll), old(yZoom)) == center
      ensures emitted == [Detail()] && events == old(events) + emitted
    {
      var zoomChange := ZoomChange(delta, props.zoomSensitivity);
      var oldZoom, oldScroll := yZoom, yScroll;
      yZoom := ZoomedBy(yZoom, zoomChange);
      yScroll := ClipY(Anchored(yScroll, center, zoomChange), yZoom);
      if oldZoom * zoomChange >= 1.0 && YInClip(Anchored(oldScroll, center, zoomChange), yZoom) {
        ZoomStepKeepsAnchor(oldZoom, oldScroll, center, zoomChange, yZoom, yScroll);
      }
      emitted := UpdateZoomAndScroll(false);
    }

    /** `_handleYScroll`: moves the y scroll by `delta * scrollSensitivity`, clipped, and dispatches one event. */
    method HandleYScroll(delta: real) returns (emitted: seq<ZoomScrollDetail>)
      requires Valid()
      modifies this`yScroll, this`xTickLabels, this`yTickLabels, this`events
      ensures Valid() && LabelsCurrent()
      ensures yScroll == ClipY(old(yScroll) + delta * props.scrollSensitivity, yZoom)
      ensures YInClip(yScroll, yZoom)
      ensures emitted == [Detail()] && events == old(events) + emitted
    {
      yScroll := ClipY(yScroll + delta * props.scrollSensitivity, yZoom);
      emitted := UpdateZoomAndScroll(false);
    }

    /**
     * The view a wheel gesture leaves the panel in: with ctrl, both axes
     * zoomed about the cursor (`offsetX` from the axis start, `offsetY` from
     * the baseline); without ctrl, each zoomed-in axis scrolled by its delta.
     */
    function WheelView(ctrlKey: bool, deltaX: real, deltaY: real, offsetX: real, offsetY: real): (v: ZoomScrollDetail)
      reads this`xZoom, this`xScroll, this`yZoom, this`yScroll
      requires Valid()
      ensures v.PeaksDetail? && ZoomsAtLeastOne(v)
      ensures InClip(xScroll, xZoom, layout.xWidthPadded) && YInClip(yScroll, yZoom) ==>
        InClip(v.xScroll, v.xZoom, layout.xWidthPadded) && YInClip(v.yScroll, v.yZoom)
      ensures !ctrlKey && xZoom == 1.0 && yZoom == 1.0 ==> v == Detail()
    {
      if ctrlKey then
        var xChange := ZoomChange(deltaX, props.zoomSensitivity);
        var yChange := ZoomChange(deltaY, props.zoomSensitivity);
        var newXZoom := ZoomedBy(xZoom, xChange);
        var newYZoom := ZoomedBy(yZoom, yChange);
        PeaksDetail(newXZoom, ClipOffset(Anchored(xScroll, offsetX - layout.xStartPadded, xChange), newXZoom, layout.xWidthPadded),
                    newYZoom, ClipY(Anchored(yScroll, layout.yStart - offsetY, yChange), newYZoom))
      else
        PeaksDetail(xZoom,
                    if xZoom > 1.0 then ClipOffset(xScroll + deltaX * props.scrollSensitivity, xZoom, layout.xWidthPadded)
                    else xScroll,
                    yZoom,
                    if yZoom > 1.0 then ClipY(yScroll + deltaY * props.scrollSensitivity, yZoom) else yScroll)
    }

    /**
     * The events that gesture dispatches, in order: one per zoom or scroll
     * step, the last carrying the final view.
     */
    function WheelEvents(ctrlKey: bool, deltaX: real, deltaY: real, offsetX: real, offsetY: real): (es: seq<ZoomScrollDetail>)
      reads this`xZoom, this`xScroll, this`yZoom, this`yScroll
      requires Valid()
      ensures ctrlKey ==> |es| == 2
      ensures !ctrlKey ==> |es| == (if xZoom > 1.0 then 1 else 0) + (if yZoom > 1.0 then 1 else 0)
      ensures |es| > 0 ==> es[|es| - 1] == WheelView(ctrlKey, deltaX, deltaY, offsetX, offsetY)
      ensures forall d :: d in es ==> d.PeaksDetail? && ZoomsAtLeastOne(d)
    {
      var v := WheelView(ctrlKey, deltaX, deltaY, offsetX, offsetY);
      var xStep := PeaksDetail(v.xZoom, v.xScroll, yZoom, yScroll);
      if ctrlKey then [xStep, v]
      else (if xZoom > 1.0 then [xStep] else []) + (if yZoom > 1.0 then [v] else [])
    }

    /**
     * `_handleWheel`. With ctrl held it zooms x about the cursor and then y
     * about the cursor, each step dispatching its own event (so the first
     * event carries the new x state and the old y state). Without ctrl it
     * scrolls each axis whose zoom exceeds 1, again one event per step, and
     * never changes a zoom.
     */
    method HandleWheel(ctrlKey: bool, deltaX: real, deltaY: real, offsetX: real, offsetY: real)
      returns (emitted: seq<ZoomScrollDetail>)
      requires Valid()
      modifies this`xZoom, this`xScroll, this`yZoom, this`yScroll, this`xTickLabels, this`yTickLabels, this`events
      ensures Valid()
      ensures old(Clipped()) ==> Clipped()
      ensures events == old(events) + emitted
      ensures |emitted| > 0 ==> LabelsCurrent() && emitted[|emitted| - 1] == Detail()
      ensures |emitted| == 0 ==> unchanged(this)
      ensures forall d :: d in emitted ==> d.PeaksDetail? && ZoomsAtLeastOne(d)
      ensures Detail() == old(WheelView(ctrlKey, deltaX, deltaY, offsetX, offsetY))
      ensures emitted == old(WheelEvents(ctrlKey, deltaX, deltaY, offsetX, offsetY))
      ensures ctrlKey ==>
        && xZoom == ZoomedBy(old(xZoom), ZoomChange(deltaX, props.zoomSensitivity))
        && xScroll == ClipOffset(Anchored(old(xScroll), offsetX - layout.xStartPadded,
                                          ZoomChange(deltaX, props.zoomSensitivity)), xZoom, layout.xWidthPadded)
        && yZoom == ZoomedBy(old(yZoom), ZoomChange(deltaY, props.zoomSensitivity))
        && yScroll == ClipY(Anchored(old(yScroll), layout.yStart - offsetY,
                                     ZoomChange(deltaY, props.zoomSensitivity)), yZoom)
        && Clipped()
        && emitted == [PeaksDetail(xZoom, xScroll, old(yZoom), old(yScroll)), Detail()]
      ensures !ctrlKey ==>
        && xZoom == old(xZoom) && yZoom == old(yZoom)
        && xScroll == (if old(xZoom) > 1.0
                       then ClipOffset(old(xScroll) + deltaX * props.scrollSensitivity, xZoom, layout.xWidthPadded)
                       else old(xScroll))
        && yScroll == (if old(yZoom) > 1.0 then ClipY(old(yScroll) + deltaY * props.scrollSensitivity, yZoom)
                       else old(yScroll))
        && emitted == (if old(xZoom) > 1.0 then [PeaksDetail(xZoom, xScroll, yZoom, old(yScroll))] else [])
                    + (if old(yZoom) > 1.0 then [Detail()] else [])
    {
      if ctrlKey {
        var first := HandleXZoom(deltaX, offsetX - layout.xStartPadded);
        var second := HandleYZoom(deltaY, layout.yStart - offsetY);
        emitted := first + second;
      } else {
        emitted := [];
        if xZoom > 1.0 {
          var step := HandleXScroll(deltaX);
          emitted := emitted + step;
        }
        if yZoom > 1.0 {
          var step := HandleYScroll(deltaY);
          emitted := emitted + step;
        }
      }
    }
  }
}

=== FILE: spectrum_view.dfy ===
/**
 * `BiowcSpectrum`: the composite chart. It derives the properties of a
 * primary peaks panel, an optional error panel and an optional mirror peaks
 * panel from one set of inputs, and keeps their views in step by forwarding
 * every `zoom-scroll` event of one panel to the others through their silent
 * setters.
 */
module SpectrumView {
  import opened Util
  import opened Viewport
  import opened FragmentPeak
  import opened PeakIndex
  import SpectrumPeaks
  import SpectrumError

  /** A spectrum as the chart receives it (its `attributes` play no part here). */
  datatype Spectrum = Spectrum(mzs: seq<real>, intensities: seq<real>)

  /**
   * The chart's properties. `pepSeq` is the peptide sequence with its
   * modification brackets already stripped.
   */
  datatype ViewProps = ViewProps(
    spectrum: Spectrum,
    pepSeq: string,
    matchedIons: seq<MatchedFragmentPeak>,
    mirrorSpectrum: Spectrum,
    mirrorMatchedIons: seq<MatchedFragmentPeak>,
    normalizeIntensity: bool,
    matchedPeaks: seq<MatchedPeakIndex>,
    hideUnmatchedPeaks: bool,
    hideErrorPlot: bool,
    errorType: SpectrumError.MzErrorType)

  /** The panels' default tick fractions: five ticks, evenly spaced over the axis. */
  const DefaultTickFractions: seq<real> := [0.0, 0.25, 0.5, 0.75, 1.0]
  /** The panels' default sensitivities and y-axis headroom. */
  const DefaultZoomSensitivity: real := 0.001
  const DefaultScrollSensitivity: real := 0.1
  const DefaultYAxisPaddingFrac: real := 0.1

  /**
   * `_minMz`: the smallest m/z of both spectra. An empty spectrum contributes
   * nothing (its `Math.min` is +Infinity); both empty is excluded.
   */
  function SharedMinMz(a: seq<real>, b: seq<real>): (m: real)
    requires |a| > 0 || |b| > 0
    ensures m in a || m in b
    ensures forall k :: 0 <= k < |a| ==> m <= a[k]
    ensures forall k :: 0 <= k < |b| ==> m <= b[k]
  {
    if |a| == 0 then SeqMin(b)
    else if |b| == 0 then SeqMin(a)
    else Min(SeqMin(a), SeqMin(b))
  }

  /** `_maxMz`: the largest m/z of both spectra. */
  function SharedMaxMz(a: seq<real>, b: seq<real>): (m: real)
    requires |a| > 0 || |b| > 0
    ensures m in a || m in b
    ensures forall k :: 0 <= k < |a| ==> a[k] <= m
    ensures forall k :: 0 <= k < |b| ==> b[k] <= m
  {
    if |a| == 0 then SeqMax(b)
    else if |b| == 0 then SeqMax(a)
    else Max(SeqMax(a), SeqMax(b))
  }

  /** Dividing by the maximum yields finite numbers. */
  predicate Normalizable(xs: seq<real>)
  {
    |xs| == 0 || SeqMax(xs) != 0.0
  }

  /** `_intensities` / `_mirrorIntensities`: divided by their maximum when normalising. */
  function Normalized(xs: seq<real>, normalize: bool): (ys: seq<real>)
    requires normalize ==> Normalizable(xs)
    ensures |ys| == |xs|
    ensures !normalize ==> ys == xs
    ensures normalize ==> forall k :: 0 <= k < |xs| ==> ys[k] * SeqMax(xs) == xs[k]
  {
    if !normalize || |xs| == 0 then xs
    else
      var m := SeqMax(xs);
      seq(|xs|, k requires 0 <= k < |xs| => xs[k] / m)
  }

  /** With a positive maximum, normalised intensities peak at exactly 1. */
  lemma NormalizedPeakIsOne(xs: seq<real>)
    requires |xs| > 0 && SeqMax(xs) > 0.0
    ensures forall k :: 0 <= k < |xs| ==> Normalized(xs, true)[k] <= 1.0
    ensures SeqMax(Normalized(xs, true)) == 1.0
  {
    var m := SeqMax(xs);
    var ys := Normalized(xs, true);
    assert forall k :: 0 <= k < |xs| ==> ys[k] == xs[k] / m;
    ScaledPeak(xs, ys, m);
    var top := SeqMax(ys);
    var i :| 0 <= i < |ys| && ys[i] == 1.0;
    assert ys[i] <= top;
  }

  /** Dividing values by their positive maximum gives values at most 1, with 1 among them. */
  lemma ScaledPeak(xs: seq<real>, ys: seq<real>, m: real)
    requires |ys| == |xs| && m > 0.0 && m in xs
    requires forall k :: 0 <= k < |xs| ==> xs[k] <= m && ys[k] == xs[k] / m
    ensures forall k :: 0 <= k < |ys| ==> ys[k] <= 1.0
    ensures 1.0 in ys
  {
    var j :| 0 <= j < |xs| && xs[j] == m;
    assert ys[j] == 1.0;
  }

  /** The first (query) component of every matched pair. */
  function QueryIndices(matched: seq<MatchedPeakIndex>): (s: seq<nat>)
    ensures |s| == |matched|
    ensures forall k :: 0 <= k < |s| ==> s[k] == matched[k].query
  {
    seq(|matched|, k requires 0 <= k < |matched| => matched[k].query)
  }

  /** The second (reference) component of every matched pair. */
  function ReferenceIndices(matched: seq<MatchedPeakIndex>): (s: seq<nat>)
    ensures |s| == |matched|
    ensures forall k :: 0 <= k < |s| ==> s[k] == matched[k].reference
  {
    seq(|matched|, k requires 0 <= k < |matched| => matched[k].reference)
  }

  predicate Ascending(s: seq<nat>)
  {
    forall a, b :: 0 <= a < b < |s| ==> s[a] < s[b]
  }

  /** The indices below `n` that `used` does not contain, in ascending order. */
  function UnmatchedIndices(n: nat, used: seq<nat>): (r: seq<nat>)
    ensures forall i: nat :: i in r <==> i < n && i !in used
    ensures Ascending(r)
    decreases n
  {
    if n == 0 then []
    else
      var prefix := UnmatchedIndices(n - 1, used);
      if n - 1 in used then prefix
      else
        assert forall a :: 0 <= a < |prefix| ==> prefix[a] in prefix;
        prefix + [n - 1]
  }

  /**
   * `_hidePeakIndices`: nothing unless unmatched peaks are hidden; then, in
   * ascending order, exactly the primary peaks that are the query side of no
   * matched pair.
   */
  function HidePeakIndices(v: ViewProps): (r: seq<nat>)
    ensures !v.hideUnmatchedPeaks ==> r == []
    ensures v.hideUnmatchedPeaks ==> forall i: nat :: i in r <==>
      (i < |v.spectrum.mzs| && forall k :: 0 <= k < |v.matchedPeaks| ==> v.matchedPeaks[k].query != i)
    ensures Ascending(r)
  {
    if !v.hideUnmatchedPeaks then []
    else
      var used := QueryIndices(v.matchedPeaks);
      assert forall i :: i in used <==> exists k :: 0 <= k < |v.matchedPeaks| && v.matchedPeaks[k].query == i by {
        forall i | i in used
          ensures exists k :: 0 <= k < |v.matchedPeaks| && v.matchedPeaks[k].query == i
        {
          var k :| 0 <= k < |used| && used[k] == i;
        }
      }
      UnmatchedIndices(|v.spectrum.mzs|, used)
  }

  /** `_hideMirrorPeakIndices`: the same filter over the mirror peaks, by the reference side. */
  function HideMirrorPeakIndices(v: ViewProps): (r: seq<nat>)
    ensures !v.hideUnmatchedPeaks ==> r == []
    ensures v.hideUnmatchedPeaks ==> forall i: nat :: i in r <==>
      (i < |v.mirrorSpectrum.mzs| && forall k :: 0 <= k < |v.matchedPeaks| ==> v.matchedPeaks[k].reference != i)
    ensures Ascending(r)
  {
    if !v.hideUnmatchedPeaks then []
    else
      var used := ReferenceIndices(v.matchedPeaks);
      assert forall i :: i in used <==> exists k :: 0 <= k < |v.matchedPeaks| && v.matchedPeaks[k].reference == i by {
        forall i | i in used
          ensures exists k :: 0 <= k < |v.matchedPeaks| && v.matchedPeaks[k].reference == i
        {
          var k :| 0 <= k < |used| && used[k] == i;
        }
      }
      UnmatchedIndices(|v.mirrorSpectrum.mzs|, used)
  }

  /** `_hasMirrorSpectrum` */
  predicate HasMirrorSpectrum(v: ViewProps)
  {
    |v.mirrorSpectrum.mzs| > 0 && |v.mirrorSpectrum.intensities| > 0
  }

  /**
   * The mirror panel is rendered exactly when the peaks it is given are not
   * empty, so the largest mirror intensity it divides by exists.
   */
  lemma MirrorPanelHasPeaks(v: ViewProps)
    requires Resolvable(v)
    ensures HasMirrorSpectrum(v) <==> |MirrorProps(v).mzs| > 0 && |MirrorProps(v).intensities| > 0
  {
  }

  /** Whether the error panel is rendered: there are matched ions and the plot is not hidden. */
  predicate HasErrorPanel(v: ViewProps)
  {
    |v.matchedIons| > 0 && !v.hideErrorPlot
  }

  /** The inputs from which the derived properties are finite numbers. */
  predicate Resolvable(v: ViewProps)
  {
    && (|v.spectrum.mzs| > 0 || |v.mirrorSpectrum.mzs| > 0)
    && (v.normalizeIntensity ==> Normalizable(v.spectrum.intensities) && Normalizable(v.mirrorSpectrum.intensities))
  }

  function MinMz(v: ViewProps): real
    requires Resolvable(v)
  {
    SharedMinMz(v.spectrum.mzs, v.mirrorSpectrum.mzs)
  }

  function MaxMz(v: ViewProps): real
    requires Resolvable(v)
  {
    SharedMaxMz(v.spectrum.mzs, v.mirrorSpectrum.mzs)
  }

  /** What the chart binds on the primary peaks panel. */
  function PrimaryProps(v: ViewProps): SpectrumPeaks.PeaksProps
    requires Resolvable(v)
  {
    SpectrumPeaks.PeaksProps(
      mirror := false,
      mzs := v.spectrum.mzs,
      intensities := Normalized(v.spectrum.intensities, v.normalizeIntensity),
      pepSeq := v.pepSeq,
      indexedMatchedIons := IndexMatchedIons(v.matchedIons),
      hidePeakIndices := HidePeakIndices(v),
      minMz := Some(MinMz(v)),
      maxMz := Some(MaxMz(v)),
      yAxisPaddingFrac := DefaultYAxisPaddingFrac,
      zoomSensitivity := DefaultZoomSensitivity,
      scrollSensitivity := DefaultScrollSensitivity,
      xTickFractions := DefaultTickFractions,
      yTickFractions := DefaultTickFractions)
  }

  /** What the chart binds on the mirror panel; it receives the primary's peptide sequence. */
  function MirrorProps(v: ViewProps): SpectrumPeaks.PeaksProps
    requires Resolvable(v)
  {
    SpectrumPeaks.PeaksProps(
      mirror := true,
      mzs := v.mirrorSpectrum.mzs,
      intensities := Normalized(v.mirrorSpectrum.intensities, v.normalizeIntensity),
      pepSeq := v.pepSeq,
      indexedMatchedIons := IndexMatchedIons(v.mirrorMatchedIons),
      hidePeakIndices := HideMirrorPeakIndices(v),
      minMz := Some(MinMz(v)),
      maxMz := Some(MaxMz(v)),
      yAxisPaddingFrac := DefaultYAxisPaddingFrac,
      zoomSensitivity := DefaultZoomSensitivity,
      scrollSensitivity := DefaultScrollSensitivity,
      xTickFractions := DefaultTickFractions,
      yTickFractions := DefaultTickFractions)
  }

  /** What the chart binds on the error panel. */
  function ErrorPropsOf(v: ViewProps): SpectrumError.ErrorProps
    requires Resolvable(v)
  {
    SpectrumError.ErrorProps(
      matchedIons := v.matchedIons,
      minMz := MinMz(v),
      maxMz := MaxMz(v),
      mzErrorType := v.errorType,
      errorLabel := "",
      zoomSensitivity := DefaultZoomSensitivity,
      scrollSensitivity := DefaultScrollSensitivity,
      xTickFractions := DefaultTickFractions)
  }

  /**
   * The shared m/z extent: all three panels get the same bounds, which
   * enclose every peak of both spectra, so the panels resolve the same m/z
   * range and the same m/z lands on the same column in each.
   */
  lemma SharedExtent(v: ViewProps)
    requires Resolvable(v)
    ensures SpectrumPeaks.MinMz(PrimaryProps(v)) == SpectrumPeaks.MinMz(MirrorProps(v)) == ErrorPropsOf(v).minMz
    ensures SpectrumPeaks.MaxMz(PrimaryProps(v)) == SpectrumPeaks.MaxMz(MirrorProps(v)) == ErrorPropsOf(v).maxMz
    ensures forall k :: 0 <= k < |v.spectrum.mzs| ==>
      ErrorPropsOf(v).minMz <= v.spectrum.mzs[k] <= ErrorPropsOf(v).maxMz
    ensures forall k :: 0 <= k < |v.mirrorSpectrum.mzs| ==>
      ErrorPropsOf(v).minMz <= v.mirrorSpectrum.mzs[k] <= ErrorPropsOf(v).maxMz
  {
  }

  /**
   * The JavaScript values a parameter can take here: a number, or
   * `undefined` when the caller passed fewer arguments than there are
   * parameters.
   */
  datatype JsValue = Num(n: real) | Undefined

  /** How a JavaScript call binds its arguments to `arity` parameters: missing ones are `undefined`. */
  function BindArgs(args: seq<real>, arity: nat): seq<JsValue>
  {
    seq(arity, i requires 0 <= i < arity => if i < |args| then Num(args[i]) else Undefined)
  }

  /** The parameters `_handleErrorZoomScroll` passes, as written, to a peaks panel's `updateZoomScroll`. */
  function ErrorForwardAsWritten(d: ZoomScrollDetail): seq<JsValue>
  {
    BindArgs([d.xZoom, d.xScroll], 4)
  }

  /**
   * As written, forwarding an error-panel event overwrites the peaks panel's
   * y zoom and y scroll with `undefined`, whatever the event carried and
   * whatever the panel held; the corrected forward passes the panel's own y
   * state back.
   */
  lemma ErrorForwardLosesY(d: ZoomScrollDetail, yZoom: real, yScroll: real)
    ensures ErrorForwardAsWritten(d) == [Num(d.xZoom), Num(d.xScroll), Undefined, Undefined]
    ensures ErrorForwardAsWritten(d) != BindArgs([d.xZoom, d.xScroll, yZoom, yScroll], 4)
  {
    assert BindArgs([d.xZoom, d.xScroll, yZoom, yScroll], 4)[2] == Num(yZoom);
  }

  /** A JavaScript number as far as it matters here: a finite value or NaN. */
  datatype JsNumber = Finite(r: real) | NaN

  /** Arithmetic on a parameter converts it to a number: `undefined` becomes NaN. */
  function ToNumber(v: JsValue): JsNumber
  {
    match v
    case Num(n) => Finite(n)
    case Undefined => NaN
  }

  function JsNeg(a: JsNumber): JsNumber
  {
    if a.NaN? then NaN else Finite(-a.r)
  }

  function JsAdd(a: JsNumber, b: JsNumber): JsNumber
  {
    if a.NaN? || b.NaN? then NaN else Finite(a.r + b.r)
  }

  function JsSub(a: JsNumber, b: JsNumber): JsNumber
  {
    if a.NaN? || b.NaN? then NaN else Finite(a.r - b.r)
  }

  function JsMul(a: JsNumber, b: JsNumber): JsNumber
  {
    if a.NaN? || b.NaN? then NaN else Finite(a.r * b.r)
  }

  /** Division; a finite quotient needs a nonzero divisor (the infinities play no part here). */
  function JsDiv(a: JsNumber, b: JsNumber): JsNumber
    requires a.Finite? && b.Finite? ==> b.r != 0.0
  {
    if a.NaN? || b.NaN? then NaN else Finite(a.r / b.r)
  }

  /** `Math.max(a, b)`: NaN when either argument is NaN. */
  function JsMax(a: JsNumber, b: JsNumber): JsNumber
  {
    if a.NaN? || b.NaN? then NaN else Finite(Max(a.r, b.r))
  }

  /** `a > b`: false whenever either side is NaN. */
  predicate JsGreater(a: JsNumber, b: JsNumber)
  {
    a.Finite? && b.Finite? && a.r > b.r
  }

  /** `_yTickFractionToIntensityLabel` before formatting, in JavaScript arithmetic on the stored y zoom and scroll. */
  function JsYLabel(mirror: bool, yScroll: JsNumber, h: real, r: real, yZoom: JsNumber, f: real): JsNumber
    requires h != 0.0 && (yZoom.Finite? ==> yZoom.r != 0.0)
  {
    var span := JsMul(Finite(h), yZoom);
    var scaledMin := JsMul(JsDiv(if mirror then yScroll else JsNeg(yScroll), span), Finite(r));
    var scaledMax := JsAdd(scaledMin, JsDiv(Finite(r), yZoom));
    JsSub(scaledMax, JsMul(Finite(f), JsSub(scaledMax, scaledMin)))
  }

  /** On finite numbers the JavaScript label is the label the panel model computes. */
  lemma JsYLabelAgrees(mirror: bool, yScroll: real, h: real, r: real, yZoom: real, f: real)
    requires h != 0.0 && yZoom != 0.0
    ensures JsYLabel(mirror, Finite(yScroll), h, r, Finite(yZoom), f)
         == Finite(SpectrumPeaks.YLabelValue(mirror, yScroll, h, r, yZoom, f))
  {
    assert h * yZoom != 0.0;
  }

  /**
   * As written, once an error-panel event has been forwarded the peaks
   * panel holds NaN as its y zoom and y scroll: every y label reads NaN, a
   * y zoom step leaves the zoom NaN (`Math.max(1, NaN)`), and `_yZoom > 1`
   * is false, so the wheel never scrolls y again.
   */
  lemma ErrorForwardBreaksY(d: ZoomScrollDetail, yZoom: JsNumber, yScroll: JsNumber,
                            mirror: bool, h: real, r: real, f: real, zoomChange: real)
    requires yZoom == ToNumber(ErrorForwardAsWritten(d)[2]) && yScroll == ToNumber(ErrorForwardAsWritten(d)[3])
    requires h != 0.0
    ensures yZoom == NaN && yScroll == NaN
    ensures JsYLabel(mirror, yScroll, h, r, yZoom, f) == NaN
    ensures JsMax(Finite(1.0), JsMul(yZoom, Finite(zoomChange))) == NaN
    ensures !JsGreater(yZoom, Finite(1.0))
  {
    ErrorForwardLosesY(d, 1.0, 0.0);
  }

  /** The rendered chart: its child panels and the inputs they were derived from. */
  class SpectrumChart {
    const view: ViewProps
    const peaks: SpectrumPeaks.PeaksPanel
    const mirrorPeaks: SpectrumPeaks.PeaksPanel?
    const error: SpectrumError.ErrorPanel?

    /** Each panel present exactly when the chart renders it, bound to its derived properties, and drawable. */
    predicate PanelsValid()
      reads this, peaks, mirrorPeaks, error
    {
      && Resolvable(view)
      && peaks.Valid() && peaks.props == PrimaryProps(view)
      && (mirrorPeaks != null <==> HasMirrorSpectrum(view))
      && (mirrorPeaks != null ==> mirrorPeaks != peaks && mirrorPeaks.Valid() && mirrorPeaks.props == MirrorProps(view))
      && (error != null <==> HasErrorPanel(view))
      && (error != null ==> error.Valid() && error.props == ErrorPropsOf(view))
    }

    /** The mirror panel and the error panel show the view a primary-panel event describes. */
    predicate FollowsPrimary(d: ZoomScrollDetail)
      requires d.PeaksDetail?
      reads this, mirrorPeaks, error
    {
      && (mirrorPeaks != null ==>
            && mirrorPeaks.xZoom == d.xZoom && mirrorPeaks.xScroll == d.xScroll
            && mirrorPeaks.yZoom == d.yZoom && mirrorPeaks.yScroll == -d.yScroll)
      && (error != null ==> error.xZoom == d.xZoom && error.xScroll == d.xScroll)
    }

    /** The primary panel and the error panel show the view a mirror-panel event describes. */
    predicate FollowsMirror(d: ZoomScrollDetail)
      requires d.PeaksDetail?
      reads this, peaks, error
    {
      && peaks.xZoom == d.xZoom && peaks.xScroll == d.xScroll
      && peaks.yZoom == d.yZoom && peaks.yScroll == -d.yScroll
      && (error != null ==> error.xZoom == d.xZoom && error.xScroll == d.xScroll)
    }

    /**
     * The panels are in step: every panel has the primary's x view, and the
     * mirror has the primary's y zoom with the y scroll negated.
     */
    predicate Synced()
      reads this, peaks, mirrorPeaks, error
    {
      FollowsPrimary(peaks.Detail())
    }

    predicate Valid()
      reads this, peaks, mirrorPeaks, error
    {
      PanelsValid() && Synced()
    }

    /** Every panel's scroll offsets lie in their clip intervals. */
    predicate AllClipped()
      reads this, peaks, mirrorPeaks, error
    {
      && peaks.Clipped()
      && (mirrorPeaks != null ==> mirrorPeaks.Clipped())
      && (error != null ==> error.Clipped())
    }

    /** The panels have the same axis extents (same width and, for the peak panels, the same height). */
    predicate SameExtents()
    {
      && (mirrorPeaks != null ==>
            && mirrorPeaks.layout.xWidthPadded == peaks.layout.xWidthPadded
            && SpectrumPeaks.YHeight(mirrorPeaks.props, mirrorPeaks.layout)
               == SpectrumPeaks.YHeight(peaks.props, peaks.layout))
      && (error != null ==> error.layout.xWidthPadded == peaks.layout.xWidthPadded)
    }

    /**
     * With equal extents, panels in step are clipped together: negating the
     * primary's y scroll maps its clip interval exactly onto the mirror's.
     */
    lemma SyncedClipped()
      requires PanelsValid() && Synced() && SameExtents()
      ensures peaks.Clipped() ==> AllClipped()
      ensures mirrorPeaks != null && mirrorPeaks.Clipped() ==> peaks.Clipped()
    {
      if mirrorPeaks != null {
        NegationMirrorsClip(peaks.yScroll, peaks.yZoom, SpectrumPeaks.YHeight(peaks.props, peaks.layout));
        assert -mirrorPeaks.yScroll == peaks.yScroll;
      }
    }

    /** `render`: creates the panels the inputs call for, each unzoomed and unscrolled. */
    constructor(view: ViewProps, peaksLayout: Layout, mirrorLayout: Layout, errorLayout: Layout,
                measuredErrorYTickWidth: real)
      requires Resolvable(view)
      requires SpectrumPeaks.Ready(PrimaryProps(view), peaksLayout)
      requires HasMirrorSpectrum(view) ==> SpectrumPeaks.Ready(MirrorProps(view), mirrorLayout)
      requires HasErrorPanel(view) ==> SpectrumError.Ready(ErrorPropsOf(view), errorLayout)
      ensures this.view == view
      ensures Valid() && AllClipped()
      ensures fresh(peaks) && peaks.events == []
      ensures mirrorPeaks != null ==> fresh(mirrorPeaks) && mirrorPeaks.events == []
      ensures error != null ==> fresh(error) && error.events == []
    {
      this.view := view;
      peaks := new SpectrumPeaks.PeaksPanel(PrimaryProps(view), peaksLayout);
      if HasMirrorSpectrum(view) {
        mirrorPeaks := new SpectrumPeaks.PeaksPanel(MirrorProps(view), mirrorLayout);
      } else {
        mirrorPeaks := null;
      }
      if HasErrorPanel(view) {
        error := new SpectrumError.ErrorPanel(ErrorPropsOf(view), errorLayout, measuredErrorYTickWidth);
      } else {
        error := null;
      }
    }

    /**
     * `_handleZoomScroll`: a primary-panel event moves the mirror panel to
     * the same x view, the same y zoom and the negated y scroll, and the
     * error panel to the same x view, silently.
     */
    method HandleZoomScroll(d: ZoomScrollDetail)
      requires PanelsValid() && d.PeaksDetail? && ZoomsAtLeastOne(d)
      modifies mirrorPeaks, error
      ensures PanelsValid() && FollowsPrimary(d)
      ensures mirrorPeaks != null ==> mirrorPeaks.events == old(mirrorPeaks.events)
      ensures error != null ==> error.events == old(error.events)
    {
      if mirrorPeaks != null {
        mirrorPeaks.UpdateZoomScroll(d.xZoom, d.xScroll, d.yZoom, -d.yScroll);
      }
      if error != null {
        error.UpdateZoomScroll(d.xZoom, d.xScroll);
      }
    }

    /** `_handleMirrorZoomScroll`: the same, from the mirror panel to the primary and the error panel. */
    method HandleMirrorZoomScroll(d: ZoomScrollDetail)
      requires PanelsValid() && d.PeaksDetail? && ZoomsAtLeastOne(d)
      modifies peaks, error
      ensures PanelsValid() && FollowsMirror(d)
      ensures peaks.events == old(peaks.events)
      ensures error != null ==> error.events == old(error.events)
    {
      peaks.UpdateZoomScroll(d.xZoom, d.xScroll, d.yZoom, -d.yScroll);
      if error != null {
        error.UpdateZoomScroll(d.xZoom, d.xScroll);
      }
    }

    /**
     * `_handleErrorZoomScroll`, corrected: both peak panels take the event's
     * x view and keep their own y zoom and y scroll.
     */
    method HandleErrorZoomScroll(d: ZoomScrollDetail)
      requires PanelsValid() && ZoomsAtLeastOne(d)
      modifies peaks, mirrorPeaks
      ensures PanelsValid()
      ensures peaks.xZoom == d.xZoom && peaks.xScroll == d.xScroll
      ensures peaks.yZoom == old(peaks.yZoom) && peaks.yScroll == old(peaks.yScroll)
      ensures mirrorPeaks != null ==>
        && mirrorPeaks.xZoom == d.xZoom && mirrorPeaks.xScroll == d.xScroll
        && mirrorPeaks.yZoom == old(mirrorPeaks.yZoom) && mirrorPeaks.yScroll == old(mirrorPeaks.yScroll)
      ensures peaks.events == old(peaks.events)
      ensures mirrorPeaks != null ==> mirrorPeaks.events == old(mirrorPeaks.events)
    {
      peaks.UpdateZoomScroll(d.xZoom, d.xScroll, peaks.yZoom, peaks.yScroll);
      if mirrorPeaks != null {
        mirrorPeaks.UpdateZoomScroll(d.xZoom, d.xScroll, mirrorPeaks.yZoom, mirrorPeaks.yScroll);
      }
    }

    /**
     * A wheel gesture over the primary panel, with every event it dispatches
     * handled by the chart. Only the primary panel dispatches; afterwards the
     * panels are in step again, and with equal extents they stay clipped.
     */
    method PrimaryWheel(ctrlKey: bool, deltaX: real, deltaY: real, offsetX: real, offsetY: real)
      returns (emitted: seq<ZoomScrollDetail>)
      requires Valid()
      modifies peaks, mirrorPeaks, error
      ensures Valid()
      ensures peaks.events == old(peaks.events) + emitted && |emitted| <= 2
      ensures emitted == old(peaks.WheelEvents(ctrlKey, deltaX, deltaY, offsetX, offsetY))
      ensures peaks.Detail() == old(peaks.WheelView(ctrlKey, deltaX, deltaY, offsetX, offsetY))
      ensures ctrlKey ==> |emitted| == 2
      ensures mirrorPeaks != null ==> mirrorPeaks.events == old(mirrorPeaks.events)
      ensures error != null ==> error.events == old(error.events)
      ensures old(AllClipped()) && SameExtents() ==> AllClipped()
    {
      emitted := peaks.HandleWheel(ctrlKey, deltaX, deltaY, offsetX, offsetY);
      label Handled:
      for i := 0 to |emitted|
        invariant PanelsValid()
        invariant unchanged@Handled(peaks)
        invariant mirrorPeaks != null ==> mirrorPeaks.events == old(mirrorPeaks.events)
        invariant error != null ==> error.events == old(error.events)
        invariant i == 0 && |emitted| == 0 ==> Synced()
        invariant i > 0 ==> FollowsPrimary(emitted[i - 1])
      {
        HandleZoomScroll(emitted[i]);
      }
      if old(AllClipped()) && SameExtents() {
        SyncedClipped();
      }
    }

    /** A wheel gesture over the mirror panel, handled the same way. */
    method MirrorWheel(ctrlKey: bool, deltaX: real, deltaY: real, offsetX: real, offsetY: real)
      returns (emitted: seq<ZoomScrollDetail>)
      requires Valid() && mirrorPeaks != null
      modifies peaks, mirrorPeaks, error
      ensures Valid()
      ensures mirrorPeaks.events == old(mirrorPeaks.events) + emitted && |emitted| <= 2
      ensures emitted == old(mirrorPeaks.WheelEvents(ctrlKey, deltaX, deltaY, offsetX, offsetY))
      ensures mirrorPeaks.Detail() == old(mirrorPeaks.WheelView(ctrlKey, deltaX, deltaY, offsetX, offsetY))
      ensures ctrlKey ==> |emitted| == 2
      ensures |emitted| > 0 ==> FollowsMirror(mirrorPeaks.Detail())
      ensures peaks.events == old(peaks.events)
      ensures error != null ==> error.events == old(error.events)
      ensures old(AllClipped()) && SameExtents() ==> AllClipped()
    {
      emitted := mirrorPeaks.HandleWheel(ctrlKey, deltaX, deltaY, offsetX, offsetY);
      label Handled:
      for i := 0 to |emitted|
        invariant PanelsValid()
        invariant unchanged@Handled(mirrorPeaks)
        invariant peaks.events == old(peaks.events)
        invariant error != null ==> error.events == old(error.events)
        invariant i == 0 && |emitted| == 0 ==> Synced()
        invariant i > 0 ==> FollowsMirror(emitted[i - 1])
      {
        HandleMirrorZoomScroll(emitted[i]);
      }
      if old(AllClipped()) && SameExtents() {
        SyncedClipped();
      }
    }

    /** A wheel gesture over the error panel, handled with the corrected forward. */
    method ErrorWheel(ctrlKey: bool, deltaX: real, deltaY: real, offsetX: real, offsetY: real)
      returns (emitted: seq<ZoomScrollDetail>)
      requires Valid() && error != null
      modifies peaks, mirrorPeaks, error
      ensures Valid()
      ensures error.events == old(error.events) + emitted && |emitted| <= 1
      ensures emitted == old(error.WheelEvents(ctrlKey, deltaX, offsetX))
      ensures error.Detail() == old(error.WheelView(ctrlKey, deltaX, offsetX))
      ensures ctrlKey ==> |emitted| == 1
      ensures peaks.xZoom == error.xZoom && peaks.xScroll == error.xScroll
      ensures peaks.events == old(peaks.events)
      ensures mirrorPeaks != null ==> mirrorPeaks.events == old(mirrorPeaks.events)
      ensures peaks.yZoom == old(peaks.yZoom) && peaks.yScroll == old(peaks.yScroll)
      ensures old(AllClipped()) && SameExtents() ==> AllClipped()
    {
      emitted := error.HandleWheel(ctrlKey, deltaX, deltaY, offsetX, offsetY);
      if |emitted| > 0 {
        HandleErrorZoomScroll(emitted[0]);
      }
      if old(AllClipped()) && SameExtents() {
        SyncedClipped();
      }
    }

    /**
     * A render or resize of the primary panel: its `updated` hook re-labels
     * the ticks and dispatches its view, which the chart forwards like any
     * other event. On a chart in step no panel's view changes.
     */
    method PrimaryUpdated() returns (emitted: seq<ZoomScrollDetail>)
      requires Valid()
      modifies peaks`xTickLabels, peaks`yTickLabels, peaks`events, mirrorPeaks, error
      ensures Valid()
      ensures emitted == [old(peaks.Detail())] && peaks.events == old(peaks.events) + emitted
      ensures peaks.LabelsCurrent() && peaks.Detail() == old(peaks.Detail())
      ensures mirrorPeaks != null ==>
        mirrorPeaks.Detail() == old(mirrorPeaks.Detail()) && mirrorPeaks.events == old(mirrorPeaks.events)
      ensures error != null ==> error.Detail() == old(error.Detail()) && error.events == old(error.events)
    {
      emitted := peaks.Updated();
      HandleZoomScroll(emitted[0]);
    }

    /** A render or resize of the mirror panel, forwarded to the primary and the error panel. */
    method MirrorUpdated() returns (emitted: seq<ZoomScrollDetail>)
      requires Valid() && mirrorPeaks != null
      modifies mirrorPeaks`xTickLabels, mirrorPeaks`yTickLabels, mirrorPeaks`events, peaks, error
      ensures Valid()
      ensures emitted == [old(mirrorPeaks.Detail())] && mirrorPeaks.events == old(mirrorPeaks.events) + emitted
      ensures mirrorPeaks.LabelsCurrent() && mirrorPeaks.Detail() == old(mirrorPeaks.Detail())
      ensures peaks.Detail() == old(peaks.Detail()) && peaks.events == old(peaks.events)
      ensures error != null ==> error.Detail() == old(error.Detail()) && error.events == old(error.events)
    {
      emitted := mirrorPeaks.Updated();
      HandleMirrorZoomScroll(emitted[0]);
    }

    /** A render or resize of the error panel, forwarded to both peak panels with the corrected forward. */
    method ErrorUpdated() returns (emitted: seq<ZoomScrollDetail>)
      requires Valid() && error != null
      modifies error`xTickLabels, error`events, peaks, mirrorPeaks
      ensures Valid()
      ensures emitted == [old(error.Detail())] && error.events == old(error.events) + emitted
      ensures error.LabelsCurrent() && error.Detail() == old(error.Detail())
      ensures peaks.Detail() == old(peaks.Detail()) && peaks.events == old(peaks.events)
      ensures mirrorPeaks != null ==>
        mirrorPeaks.Detail() == old(mirrorPeaks.Detail()) && mirrorPeaks.events == old(mirrorPeaks.events)
    {
      emitted := error.Updated();
      HandleErrorZoomScroll(emitted[0]);
    }

    /**
     * `firstUpdated`: every present panel's y tick width becomes the largest
     * of their widths (an absent panel counts as 0), so their y axes line up.
     */
    method FirstUpdated() returns (width: real)
      requires Valid()
      modifies peaks`yTickWidth
      modifies (if mirrorPeaks != null then {mirrorPeaks} else {})`yTickWidth
      modifies (if error != null then {error} else {})`storedYTickWidth
      ensures width >= old(peaks.yTickWidth)
      ensures width >= (if mirrorPeaks != null then old(mirrorPeaks.yTickWidth) else 0.0)
      ensures width >= (if error != null then old(error.YTickWidth()) else 0.0)
      ensures || width == old(peaks.yTickWidth)
              || width == (if mirrorPeaks != null then old(mirrorPeaks.yTickWidth) else 0.0)
              || width == (if error != null then old(error.YTickWidth()) else 0.0)
      ensures peaks.yTickWidth == width
      ensures mirrorPeaks != null ==> mirrorPeaks.yTickWidth == width
      ensures error != null ==> error.storedYTickWidth == width && (width != 0.0 ==> error.YTickWidth() == width)
      ensures Valid()
    {
      var mirrorWidth := if mirrorPeaks != null then mirrorPeaks.yTickWidth else 0.0;
      var errorWidth := if error != null then error.YTickWidth() else 0.0;
      width := Max(Max(peaks.yTickWidth, mirrorWidth), errorWidth);
      peaks.yTickWidth := width;
      if mirrorPeaks != null {
        mirrorPeaks.yTickWidth := width;
      }
      if error != null {
        error.SetYTickWidth(width);
      }
    }
  }
}

=== FILE: util.dfy ===
/**
 * Small shared vocabulary: an optional value, and JavaScript's Math.min/Math.max
 * on two numbers and on a non-empty array of numbers.
 */
module Util {

  datatype Option<T> = None | Some(value: T)

  /** Math.min(a, b) */
  function Min(a: real, b: real): (m: real)
    ensures m <= a && m <= b
    ensures m == a || m == b
  {
    if a <= b then a else b
  }

  /** Math.max(a, b) */
  function Max(a: real, b: real): (m: real)
    ensures m >= a && m >= b
    ensures m == a || m == b
  {
    if a >= b then a else b
  }

  /**
   * Math.min(...s) for a non-empty array; on an empty array JavaScript gives
   * +Infinity, which callers exclude by precondition.
   */
  function SeqMin(s: seq<real>): (m: real)
    requires |s| > 0
    ensures m in s
    ensures forall k :: 0 <= k < |s| ==> m <= s[k]
  {
    if |s| == 1 then s[0] else Min(s[0], SeqMin(s[1..]))
  }

  /** Math.max(...s) for a non-empty array (JavaScript gives -Infinity on an empty one). */
  function SeqMax(s: seq<real>): (m: real)
    requires |s| > 0
    ensures m in s
    ensures forall k :: 0 <= k < |s| ==> s[k] <= m
  {
    if |s| == 1 then s[0] else Max(s[0], SeqMax(s[1..]))
  }

  /** A witness for a non-empty set, used before picking an element with `:|`. */
  lemma Pick<T>(s: set<T>) returns (y: T)
    requires s != {}
    ensures y in s
  {
    y :| y in s;
  }
}

=== FILE: viewport.dfy ===
/**
 * The viewport arithmetic shared by the peak panels and the error panel:
 * wheel-driven zoom with a floor of 1, re-centring of the scroll offset about
 * the cursor, clipping of the scroll offset to the zoomed extent, the linear
 * data-to-pixel maps, and the data window that tick labels show.
 *
 * A panel draws its content inside an SVG group whose transform is
 * `translate(scroll) scale(zoom)` about a fixed origin, so content coordinate
 * `p` (relative to the origin) appears at screen offset `scroll + zoom * p`.
 */
module Viewport {
  import opened Util

  /**
   * A panel's plot-area geometry, which the source derives from its size and
   * font metrics: the left edge and width of the padded x axis, and the pixel
   * rows of the axis baseline (`yStart`) and of the far end of the y axis (`yEnd`).
   */
  datatype Layout = Layout(xStartPadded: real, xWidthPadded: real, yStart: real, yEnd: real)

  /** The `detail` object of a `zoom-scroll` event. */
  datatype ZoomScrollDetail =
    | PeaksDetail(xZoom: real, xScroll: real, yZoom: real, yScroll: real)
    | ErrorDetail(xZoom: real, xScroll: real)

  /** The zooms an event carries are at least 1 (an error-panel event carries x only). */
  predicate ZoomsAtLeastOne(d: ZoomScrollDetail)
  {
    d.xZoom >= 1.0 && (d.PeaksDetail? ==> d.yZoom >= 1.0)
  }

  /** Zoom multiplier of one ctrl-wheel step: `1 + delta * zoomSensitivity`. */
  function ZoomChange(delta: real, sensitivity: real): real
  {
    1.0 + delta * sensitivity
  }

  /** The zoom after a ctrl-wheel step, `Math.max(1, zoom * change)`. */
  function ZoomedBy(zoom: real, change: real): (z: real)
    ensures z >= 1.0 && z >= zoom * change
    ensures z == 1.0 || z == zoom * change
  {
    Max(1.0, zoom * change)
  }

  /** The scroll offset re-centred about `center` by a zoom step, before clipping. */
  function Anchored(scroll: real, center: real, change: real): real
  {
    change * (scroll - center) + center
  }

  /** The content coordinate that appears at screen offset `screen`. */
  function ContentAt(screen: real, scroll: real, zoom: real): (p: real)
    requires zoom != 0.0
    ensures scroll + zoom * p == screen
  {
    (screen - scroll) / zoom
  }

  /**
   * Cursor anchoring: the content point that was under `center` before a zoom
   * step by `change` is still under `center` afterwards, provided neither the
   * zoom floor nor the clip interfered (new zoom `zoom * change`, new scroll
   * the anchored one).
   */
  lemma AnchorStaysFixed(scroll: real, center: real, change: real, zoom: real)
    requires zoom != 0.0
    ensures Anchored(scroll, center, change) + (zoom * change) * ContentAt(center, scroll, zoom) == center
  {
    var p := ContentAt(center, scroll, zoom);
    assert zoom * p == center - scroll;
    calc {
      Anchored(scroll, center, change) + (zoom * change) * p;
      change * (scroll - center) + center + change * (zoom * p);
      change * (scroll - center) + center + change * (center - scroll);
      center;
    }
  }

  /**
   * The same for a whole zoom step: when the floor is not reached and the
   * stored scroll is the anchored one (the clip left it alone), the point
   * under `center` stays put.
   */
  lemma ZoomStepKeepsAnchor(oldZoom: real, oldScroll: real, center: real, change: real,
                            newZoom: real, newScroll: real)
    requires oldZoom >= 1.0 && oldZoom * change >= 1.0
    requires newZoom == ZoomedBy(oldZoom, change) && newScroll == Anchored(oldScroll, center, change)
    ensures newScroll + newZoom * ContentAt(center, oldScroll, oldZoom) == center
  {
    AnchorStaysFixed(oldScroll, center, change, oldZoom);
  }

  /** `(zoom - 1) * extent`: how far the zoomed content reaches past the axis. */
  function MaxOffset(zoom: real, extent: real): real
  {
    (zoom - 1.0) * extent
  }

  /** The scroll interval of an axis anchored at its start: `[-(zoom-1)*extent, 0]`. */
  predicate InClip(offset: real, zoom: real, extent: real)
  {
    -MaxOffset(zoom, extent) <= offset <= 0.0
  }

  /** The scroll interval of the mirror panel's y axis: `[0, (zoom-1)*extent]`. */
  predicate InMirrorClip(offset: real, zoom: real, extent: real)
  {
    0.0 <= offset <= MaxOffset(zoom, extent)
  }

  /** `Math.min(Math.max(offset, -maxOffset), 0)`: the nearest point of the scroll interval. */
  function ClipOffset(offset: real, zoom: real, extent: real): (r: real)
    ensures zoom >= 1.0 && extent >= 0.0 ==> InClip(r, zoom, extent)
    ensures InClip(offset, zoom, extent) ==> r == offset
    ensures zoom >= 1.0 && extent >= 0.0 && offset < -MaxOffset(zoom, extent) ==> r == -MaxOffset(zoom, extent)
    ensures offset > 0.0 ==> r == 0.0
    ensures zoom == 1.0 ==> r == 0.0
  {
    Min(Max(offset, -MaxOffset(zoom, extent)), 0.0)
  }

  /** `Math.max(Math.min(offset, maxOffset), 0)`: the mirror panel's y clip. */
  function ClipMirrorOffset(offset: real, zoom: real, extent: real): (r: real)
    ensures zoom >= 1.0 && extent >= 0.0 ==> InMirrorClip(r, zoom, extent)
    ensures InMirrorClip(offset, zoom, extent) ==> r == offset
    ensures zoom >= 1.0 && extent >= 0.0 && offset > MaxOffset(zoom, extent) ==> r == MaxOffset(zoom, extent)
    ensures offset < 0.0 ==> r == 0.0
    ensures zoom == 1.0 ==> r == 0.0
  {
    Max(Min(offset, MaxOffset(zoom, extent)), 0.0)
  }

  /** Clipping twice is clipping once. */
  lemma ClipIdempotent(offset: real, zoom: real, extent: real)
    requires zoom >= 1.0 && extent >= 0.0
    ensures ClipOffset(ClipOffset(offset, zoom, extent), zoom, extent) == ClipOffset(offset, zoom, extent)
    ensures ClipMirrorOffset(ClipMirrorOffset(offset, zoom, extent), zoom, extent)
         == ClipMirrorOffset(offset, zoom, extent)
  {
  }

  /**
   * Negating a scroll offset maps the clip interval of a start-anchored axis
   * onto the mirror's interval for the same zoom and extent, and commutes with
   * clipping.
   */
  lemma NegationMirrorsClip(offset: real, zoom: real, extent: real)
    ensures InClip(offset, zoom, extent) <==> InMirrorClip(-offset, zoom, extent)
    ensures ClipMirrorOffset(-offset, zoom, extent) == -ClipOffset(offset, zoom, extent)
  {
  }

  /** A linear map of the data interval starting at `dMin` onto pixels starting at `pStart` (`_mzToX`). */
  function Project(v: real, dMin: real, dRange: real, pStart: real, pWidth: real): real
    requires dRange != 0.0
  {
    pStart + ((v - dMin) / dRange) * pWidth
  }

  /** The inverse of `Project`: the data value at pixel `p`. */
  function Unproject(p: real, dMin: real, dRange: real, pStart: real, pWidth: real): real
    requires pWidth != 0.0
  {
    dMin + ((p - pStart) / pWidth) * dRange
  }

  lemma ProjectRoundTrip(v: real, p: real, dMin: real, dRange: real, pStart: real, pWidth: real)
    requires dRange != 0.0 && pWidth != 0.0
    ensures Unproject(Project(v, dMin, dRange, pStart, pWidth), dMin, dRange, pStart, pWidth) == v
    ensures Project(Unproject(p, dMin, dRange, pStart, pWidth), dMin, dRange, pStart, pWidth) == p
  {
    var t := (v - dMin) / dRange;
    assert t * dRange == v - dMin;
    calc {
      Unproject(Project(v, dMin, dRange, pStart, pWidth), dMin, dRange, pStart, pWidth);
      dMin + ((t * pWidth) / pWidth) * dRange;
      { assert (t * pWidth) / pWidth == t; }
      dMin + t * dRange;
      v;
    }
    var u := (p - pStart) / pWidth;
    assert u * pWidth == p - pStart;
    calc {
      Project(Unproject(p, dMin, dRange, pStart, pWidth), dMin, dRange, pStart, pWidth);
      pStart + ((u * dRange) / dRange) * pWidth;
      { assert (u * dRange) / dRange == u; }
      pStart + u * pWidth;
      p;
    }
  }

  /** The data value at fraction `f` of the data interval lands at fraction `f` of the pixel interval. */
  lemma ProjectFraction(f: real, dMin: real, dRange: real, pStart: real, pWidth: real)
    requires dRange != 0.0
    ensures Project(dMin + f * dRange, dMin, dRange, pStart, pWidth) == pStart + f * pWidth
  {
    assert (dMin + f * dRange - dMin) / dRange == f;
  }

  /** Where the group transform `translate(scroll) scale(zoom)` about `origin` puts pixel `p`. */
  function Transformed(p: real, origin: real, scroll: real, zoom: real): real
  {
    origin + scroll + zoom * (p - origin)
  }

  /**
   * The data value an x tick label shows at fraction `f` of the axis
   * (`_xTickFractionToMzLabel` before `toPrecision`): the visible window starts
   * at `dMin + (-scroll / (width * zoom)) * dRange` and spans `dRange / zoom`.
   */
  function VisibleValue(f: real, dMin: real, dRange: real, scroll: real, width: real, zoom: real): real
    requires width != 0.0 && zoom != 0.0
  {
    var scaledMin := dMin + (-scroll / (width * zoom)) * dRange;
    var scaledMax := scaledMin + dRange / zoom;
    scaledMin + f * (scaledMax - scaledMin)
  }

  /**
   * Tick labels agree with the drawing: the data value a label at fraction `f`
   * shows is exactly the one whose projected pixel the group transform moves to
   * the label's position `origin + f * width`.
   */
  lemma VisibleValueConsistent(f: real, dMin: real, dRange: real, scroll: real, width: real, zoom: real, origin: real)
    requires width != 0.0 && zoom != 0.0 && dRange != 0.0
    ensures Transformed(Project(VisibleValue(f, dMin, dRange, scroll, width, zoom), dMin, dRange, origin, width),
                        origin, scroll, zoom)
         == origin + f * width
  {
    var v := VisibleValue(f, dMin, dRange, scroll, width, zoom);
    var a := -scroll / (width * zoom);
    var b := f / zoom;
    assert v == dMin + (a + b) * dRange by {
      assert f * (dRange / zoom) == b * dRange;
    }
    assert (v - dMin) / dRange == a + b;
    calc {
      Project(v, dMin, dRange, origin, width);
      origin + (a + b) * width;
      { assert a * width * zoom == -scroll; assert b * zoom == f; }
      origin + (f * width - scroll) / zoom;
    }
    var q := (f * width - scroll) / zoom;
    assert zoom * q == f * width - scroll;
  }

  /** At rest (zoom 1, scroll 0) the x tick at fraction `f` shows `dMin + f * dRange`. */
  lemma VisibleValueAtRest(f: real, dMin: real, dRange: real, width: real)
    requires width != 0.0
    ensures VisibleValue(f, dMin, dRange, 0.0, width, 1.0) == dMin + f * dRange
  {
  }
}
